=== FILE: README.md ===
# goose-testrail in Dafny

A model of the logic in goose-testrail, an adapter that exposes part of the TestRail
test-management REST API. There are two entry points:

- **The standalone query module** (`testrail.py`). It builds an authenticated GET request
  against `<base>/index.php?/api/v2/<endpoint>` and chooses the exception raised when the
  request fails. It unwraps the `tests` and `results` lists from the responses. It also
  classifies a run's tests into *failed* (status 5) and *blocked* (status 2) buckets, and
  attaches the most recent result to each classified test. `export_to_spreadsheet` only
  builds a record around that classification.
- **The assistant extension** (`goose_testrail/__init__.py`). It is a two-state object.
  It stays uninitialised until `initialize` receives a truthy base URL, user name and
  API key. Every tool raises `RuntimeError` before that. After that, each tool builds a
  payload from its optional arguments and passes it to the `testrail_api` client.

The network, JSON decoding, `str()` of JSON values, Base64, `repr` and the
network-location check of `urllib.parse.urlparse` are opaque functions held in an `Io`
record. The `testrail_api` library is seen only as a log of the calls made on it,
plus an oracle that answers each call. The classification takes the outcome of the
`get_tests` query and a results fetch `int -> Result<seq<Json>, Error>`. It records the
sequence of test ids whose results it asked for.

Files:

- `outcomes.dfy`: `Option`, `Result`, and the Python exceptions raised (`Error`).
- `json.dfy`: JSON values, Python truthiness, `dict.get`, `str()` of a value.
- `text.dfy`: `rstrip`, `strip`, decimal `str(int)`, and splitting at the first or the
  last occurrence of a character.
- `urls.dfy`: what building a `urllib.request.Request` checks in its URL before anything
  is sent.
- `testrail.dfy`: the client: URL, `Authorization` header, error selection, list
  unwrapping, the three queries.
- `classify.dfy`: `get_failed_and_blocked` and `export_to_spreadsheet`.
- `queries.dfy`: `get_failed_and_blocked` fed by the real results query, with the URLs it
  requests.
- `extension.dfy`: the extension state, `initialize`, the tool guard, the payload
  builders, and sessions of operations with their library-call log.

## Model

| member | source | states |
|---|---|---|
| Text.TrimTrailing | testrail.py:28 | The result is a prefix of the input. It does not end in the stripped character. Everything the input has beyond it is that character. |
| Text.TrimTrailingUnique | testrail.py:28 | Those three properties determine `rstrip` completely: any string that has them is the stripped string. |
| Text.TrimTrailingIdempotent | testrail.py:28 | Stripping an already stripped base URL changes nothing. |
| Text.NatToDecimal | testrail.py:85 | The endpoint id is rendered as a non-empty run of decimal digits, with no leading zero except for 0 itself. |
| Text.NatToDecimalRoundTrip | testrail.py:85 | Reading the rendered digits back gives the original number. |
| Text.IntToDecimal | testrail.py:85 | The id in each endpoint f-string (also lines 102 and 120) is a non-empty string of decimal digits. It starts with `-` exactly when the id is negative, and `-` appears nowhere else. |
| Text.IntToDecimalInjective | testrail.py:85 | Two ids with the same rendering are equal, including negative ones. |
| Text.Strip | testrail.py:53 | `str.strip()`, which `unwrap` applies to the URL: the result neither starts nor ends with a Python whitespace character and holds no character the input lacked. An input that is already stripped comes back unchanged. |
| Text.TrimEndBlank | testrail.py:53 | Trimming whitespace off the end of a string followed by blanks gives back that string, when it ends in a character that is not blank. |
| Text.TrimStartBlank | testrail.py:53 | Trimming whitespace off the start of blanks followed by a string gives back that string, when it starts with a character that is not blank. |
| Text.StripRoundTrip | testrail.py:53 | `strip` removes exactly the surrounding whitespace: a stripped, non-empty string between any two runs of Python whitespace comes back unchanged. |
| Text.SplitAtLast | testrail.py:53 | `rpartition('#')`, which `Request` uses to cut off the fragment. The input is the head, then the separator and the tail when there is one. The tail holds no separator, and there is no tail exactly when the input holds no separator. |
| Text.SplitAtFirstJoin | testrail.py:44 | Cutting `user + ":" + password` at its first colon gives back `user` and `password` when `user` has no colon. |
| TestRail.NewClient | testrail.py:20-30 | The stored base URL is the input with all trailing slashes removed and never ends in '/'. The user name and password are stored verbatim. |
| TestRail.ClientOf | testrail.py:80-84 | Each standalone function builds its client with the base URL stripped of trailing slashes and the configured user name and password unchanged. |
| TestRail.RequestUrl | testrail.py:41 | The URL starts with the base URL followed by `/index.php?/api/v2/`, and the rest of it is exactly the endpoint. |
| TestRail.EndpointRoundTrip | testrail.py:41 | The endpoint can be read back from the request URL. A URL names an endpoint exactly when it is that endpoint's request URL. |
| TestRail.NoDoubleSlash | testrail.py:28-41 | The base URL and the API path meet at a single slash. |
| TestRail.AuthHeader | testrail.py:44-48 | The header is `Basic ` followed by the Base64 of `username:password`. |
| TestRail.AuthHeaderRoundTrip | testrail.py:44-48 | A server that decodes the header and splits at the first colon (section 2 of RFC 7617) recovers the user name and the password. This holds when the user name has no colon. |
| TestRail.ColonInUsernameIsMisread | testrail.py:44-45 | The client does not check for a colon in the user name. When there is one, the server reads a shorter user name. |
| TestRail.Headers | testrail.py:47-51 | The request is built with exactly these three headers: `Authorization` with the Basic credentials, and JSON `Content-Type` and `Accept`. |
| TestRail.RequestFor | testrail.py:53 | The request is built for the client's URL of the endpoint, which reads back to that endpoint, and it carries the three headers with the client's credentials. |
| Urls.UnwrapUrl | testrail.py:53 | `Request` first unwraps the URL: the result is stripped of whitespace at both ends and holds no character the input lacked. A URL that has no blank at either end, does not start with `<` and does not start with `URL:` comes back unchanged. |
| Urls.UnwrapRoundTrip | testrail.py:53 | `unwrap` removes exactly the `<URL:...>` wrapper: the wrapped form of a stripped, non-empty URL unwraps to that URL. |
| Urls.FullUrl | testrail.py:53 | The `full_url` of the built request: the URL without its fragment, followed by `#` and the fragment exactly when the fragment is non-empty. |
| Urls.SchemePattern | testrail.py:53 | `HasScheme` is the `([^/:]+):` match of `_splittype`: the URL passes exactly when some colon after the first character has no `/` or `:` before it. |
| Urls.RequestError | testrail.py:53 | Building the `Request` raises only `ValueError`. A URL with no `scheme:` prefix (after unwrapping and cutting off the fragment) raises `unknown url type: ` with the quoted URL. Otherwise only the network-location check can refuse it. A URL with no colon at all is always refused. |
| Urls.PrefixGivesScheme | testrail.py:53 | A URL that starts with characters other than `/` and `:` followed by a colon passes the scheme check. |
| Urls.SchemeKept | testrail.py:53 | Unwrapping and cutting off the fragment keep such a scheme prefix when it has no blank, `#`, leading `<` or leading `U`. |
| Urls.SchemeLeavesNetloc | testrail.py:53 | Once a URL passes the scheme check, building the `Request` fails exactly when the network-location check does. |
| Urls.WebUrlHasScheme | testrail.py:53 | A URL handed to `Request` that starts with `http:` or `https:` passes the scheme check, so only the network-location check can refuse it. |
| TestRail.StripKeepsScheme | testrail.py:28 | Stripping the trailing slashes keeps a leading scheme such as `https:`, even of the base `https://`. |
| TestRail.ClientUrlKeepsScheme | testrail.py:28-41 | The request URL starts with `http:` or `https:` whenever the base URL given to the client did. |
| TestRail.ClientUrlHasScheme | testrail.py:24-53 | For a base URL of the documented form `http...` or `https...` (line 24), every endpoint's request URL passes the scheme check. So `_make_request` never raises `unknown url type`, and building the request fails only when the network-location check does. |
| TestRail.HttpErrorOf | testrail.py:59-65 | For an HTTP error, the message is `TestRail API error: ` followed by one of three texts. It is the `error` field when the body is a JSON object with that key, and the whole body when the object lacks it. It is also the whole body when the body is not JSON. A JSON body that is not an object raises `AttributeError` from `.get`. |
| TestRail.RemoteErrorTextIsKept | testrail.py:59-65 | The body `{"error": text}` yields exactly `TestRail API error: text`. A body that is not JSON yields the prefix followed by the raw body. |
| TestRail.NoGetMethod | testrail.py:63 | `.get` on a JSON value that is not a dict raises `AttributeError`, and the message names the value's class (also line 103). |
| TestRail.Fetch | testrail.py:53-68 | Apart from a failure to read an HTTP error's body, the only exceptions raised are `ValueError`, `Exception` and `AttributeError`. That read failure (line 60) escapes the handler unchanged. Of the other plain `Exception`s, the message starts with `TestRail API error: ` exactly when the response was an HTTP error, and with `Error accessing TestRail API: ` exactly when it was not. So API errors are never re-wrapped as access errors. |
| TestRail.FetchOutcome | testrail.py:53-68 | A `ValueError` is raised exactly when building the request refuses the URL, or when reading an HTTP error's body fails with a `ValueError` such as `UnicodeDecodeError`. A refused URL raises that URL error before anything is sent. Otherwise the request succeeds exactly when the response is 2xx and its body parses, and then returns the parsed body. An HTTP error raises the error chosen by HttpErrorOf, or the failure to read its body unchanged. An unparseable success body or any other failure is wrapped as `Error accessing TestRail API: ...`. |
| TestRail.NoColonAdded | testrail.py:41 | The API path adds no colon to a URL. |
| TestRail.MakeRequest | testrail.py:32-68 | When neither the base URL nor the endpoint holds a colon, the URL has no scheme: the call raises `ValueError` (`unknown url type: ...`) unwrapped, before anything is sent. |
| TestRail.ListField | testrail.py:103 | On an object, it returns the field if present and an empty list otherwise. It succeeds exactly on objects. On any other value it raises `AttributeError`. |
| TestRail.Unwrap | testrail.py:103 | `response.get(key, [])` after a request (also line 121) succeeds exactly on a response object, giving the field or an empty list. A failed request passes through unchanged. Any other response raises `AttributeError`. |
| TestRail.GetRun | testrail.py:70-85 | The run is fetched from `<base without trailing slashes>/index.php?/api/v2/get_run/<run_id>` with the configured credentials. That URL reads back to the endpoint `get_run/<run_id>`. |
| TestRail.QueryRequest | testrail.py:41-53 | The request for `name<id>` is spelled out from the configuration, and its URL reads back to that endpoint. |
| TestRail.GetTests | testrail.py:87-103 | The document comes from `<base>/index.php?/api/v2/get_tests/<run_id>`, whose endpoint reads back. A failed request passes through unchanged. Otherwise the result is the `tests` field of the response, defaulting to an empty list. |
| TestRail.GetResultsForTest | testrail.py:105-121 | The document comes from `<base>/index.php?/api/v2/get_results/<test_id>`, whose endpoint reads back. A failed request passes through unchanged. Otherwise the result is the `results` field of the response, defaulting to an empty list. |
| TestRail.ResultsEndpointInjective | testrail.py:120 | Distinct test ids are queried at distinct endpoints. |
| TestRail.Endpoint | testrail.py:85 | A query's endpoint is its name followed by the decimal id (`get_run/`, and `get_tests/` and `get_results/` at lines 102 and 120). A name without a colon or `#` gives an endpoint without either, so the id cannot change how the URL is parsed. |
| TestRail.EndpointIdInjective | testrail.py:85 | An endpoint name followed by an id reads back the id: equal endpoints have equal ids. |
| TestRail.RequestUrlInjective | testrail.py:41 | Equal request URLs of one client have equal endpoints. |
| TestRail.QueryUrlsIdentify | testrail.py:85-120 | Two runs, or two tests, are fetched from the same URL only when their ids are equal. |
| TestRail.QueryUrlsDistinct | testrail.py:85-120 | The run, tests and results queries never share a URL, whatever their ids. |
| Classify.QueriedPrefix | testrail.py:146-156 | The ids queried for a prefix of the run are a prefix of the ids queried for the whole run. |
| Classify.Attach | testrail.py:149-150 | The test keeps its id and status. With a non-empty results list (lines 154-155 alike) its `latest_result` is the head of the list. With an empty list the test is unchanged. |
| Classify.GetFailedAndBlocked | testrail.py:123-161 | It fetches results only for status-5 and status-2 tests, one fetch each, in input order. It succeeds exactly when all those fetches succeed. Then `failed` and `blocked` are the status-5 and status-2 tests in input order. Each has the head of its results attached as `latest_result` when the list is non-empty, and is unchanged otherwise. A failed `get_tests`, or the first failed fetch, aborts with that error and no partial classification. |
| Classify.Positions | testrail.py:146-156 | Lists, in increasing order, positions of the run that hold a test with the given status. |
| Classify.PositionsMatchBucket | testrail.py:146-156 | The bucket is exactly the tests at those positions, one per position. So each bucket is a subsequence of the run in input order. |
| Classify.PositionsCover | testrail.py:146-156 | Every test with the given status has its position listed, so no such test is missing from its bucket. |
| Classify.WithStatusMembers | testrail.py:146-156 | A test is in a bucket exactly when it is one of the run's tests and has that bucket's status. |
| Classify.BucketSizes | testrail.py:146-156 | The number of fetches equals the failed count plus the blocked count, and that sum is at most the number of tests. |
| Classify.BucketsDisjoint | testrail.py:146-156 | The failed and blocked buckets share no test. |
| Classify.ClassifiedStatuses | testrail.py:146-156 | After results are attached, every failed test still has status 5 and every blocked test status 2. No test is in both buckets. |
| Classify.ClassificationUnique | testrail.py:146-161 | The tests and the fetch determine the classification: two classifications of one run are equal. |
| Classify.ThreeTestRun | testrail.py:146-156 | For tests with statuses 5, 1 and 2, test 1 is failed and test 3 is blocked. Only ids 1 and 3 are queried, never test 2. |
| Classify.ExportToSpreadsheet | testrail.py:163-187 | A failed run fetch aborts before any test query. A failed `get_tests` aborts with its error. When a result fetch fails, the same error is raised: the fetches made are a prefix of the queried ids, all succeeded but the last, and the last failed with that error. On success, the record holds the run, the classification, the spreadsheet id and the fixed status text, and the fetches are those of the classification. |
| Queries.ResultList | testrail.py:148-150 | `if results: ... results[0]` on the value `get_results_for_test` returned. A list gives its items and a falsy value none. A non-empty string gives its first character. A non-empty object raises `KeyError`, and a non-zero number or `True` raises `TypeError`. A failed request passes through. |
| Queries.ResultsUrls | testrail.py:148 | Each results request URL reads back to the `get_results/<id>` endpoint of its id. |
| Queries.PrefixBuiltInOrder | testrail.py:146-156 | Requesting the results for a prefix of the queried ids builds their URLs in order. |
| Queries.BuiltUrlsIdentifyTests | testrail.py:146-156 | Two results requests built in order go to the same URL exactly when they are for the same test id. |
| Queries.EarlierFetchesSucceeded | testrail.py:146-150 | When the pass stops at a failing fetch, every fetch before it succeeded. |
| Queries.FailedAndBlockedRequests | testrail.py:140-156 | Fed by `get_results_for_test`, the pass builds the `get_results/<id>` requests of the queried tests in order and stops at the first failure, raising its error: every fetch before the last one succeeded. The last one built may be refused by `Request` before it is sent. On success it builds one for every queried test, and the buckets are the classification under that fetch. A failed `get_tests` builds nothing. |
| Json.Lookup | goose_testrail/__init__.py:20-22 | `config.get(key)` is the value under the key, or `None` when the key is absent. |
| Json.TypeName | testrail.py:63 | The class name in the `AttributeError` message of `.get` on a value that is not a dict (also line 103): `NoneType`, `bool`, `int`, `str`, `list` or `dict`, each naming exactly one kind of JSON value. |
| Json.PyStr | testrail.py:63 | A string `error` value is inserted into the message verbatim. |
| Json.Truthy | goose_testrail/__init__.py:24 | A value is falsy exactly when it is `None`, `False`, `0`, `""`, `[]` or `{}`. This truthiness is used again at lines 58, 88 and 116. |
| Extension.Fresh | goose_testrail/__init__.py:8-14 | A new extension has no client, and its base URL, user name and API key are all `None`. |
| Extension.Initialize | goose_testrail/__init__.py:16-31 | Once the `testrail_api` import at line 18 succeeds, the three fields are overwritten with `config.get(...)` in every case. It succeeds exactly when all three values are truthy. On success it constructs one client from those values, with the API key as the password. Otherwise it raises `ValueError`, makes no call, and leaves the client as it was. |
| Extension.KeepInt | goose_testrail/__init__.py:58 | An optional integer is kept exactly when it is truthy, so `0` counts as absent. |
| Extension.KeepStr | goose_testrail/__init__.py:116 | An optional comment is kept exactly when it is truthy, so the empty string counts as absent. |
| Extension.RunPayload | goose_testrail/__init__.py:84-89 | The payload always has `name`, and `description` (which may be `None`). It has `suite_id` exactly when that value is truthy, and no other key. |
| Extension.ResultPayload | goose_testrail/__init__.py:113-117 | The payload always has `status_id`. It has `comment` exactly when that value is a non-empty string, and no other key. |
| Extension.RunPayloadRoundTrip | goose_testrail/__init__.py:84-89 | Reading the run payload back gives the name and description exactly. The suite id comes back only when it is truthy. |
| Extension.ResultPayloadRoundTrip | goose_testrail/__init__.py:113-117 | Reading the result payload back gives the status exactly. The comment comes back only when it is truthy. |
| Extension.CallFor | goose_testrail/__init__.py:42-119 | A tool's library call is never a construction. The tool is read back from the call with its falsy optional arguments dropped (lines 42, 58-60, 91 and 119). |
| Extension.CallForRoundTrip | goose_testrail/__init__.py:55-119 | Two tools make the same library call exactly when they agree once their falsy optional arguments are dropped. |
| Extension.Invoke | goose_testrail/__init__.py:40-42 | Without a client, every tool raises `RuntimeError` and makes no call. With one, it makes exactly its call and returns the client's answer or error unchanged. |
| Extension.Apply | goose_testrail/__init__.py:16-119 | One operation makes at most one library call. A tool call is only made when a client exists. A client appears only by being constructed. |
| Extension.GuardedConcat | goose_testrail/__init__.py:40-41 | Appending a guarded log to a guarded log gives a guarded log. The second log is judged with the first one's construction taken into account. |
| Extension.SessionGuarded | goose_testrail/__init__.py:16-119 | In any sequence of `initialize` and tool calls, no tool reaches the library before a client exists. At the end a client exists exactly when one existed at the start or the session constructed one. |
| Extension.FreshSessionGuarded | goose_testrail/__init__.py:8-119 | Starting from a new extension, every library call other than a construction comes after a construction. |

## Left out

- Networking: `urllib.request.urlopen` is the `send` function of `Io`. Its outcome is one of four things: a body, an `HTTPError` with its body, an `HTTPError` whose body cannot be read or decoded together with the exception that raises, or another failure with its text. HTTP status codes are carried but not interpreted.
- The headers on the wire: urllib renames `Content-Type` to `Content-type` and adds `User-agent`, `Host` and `Connection` when it sends. The model stops at the header map the request is built with.
- URL parsing: `Request` is modelled up to its scheme check, following CPython 3.8 and later. The later `urlparse` check of the network location (bracketed IPv6 hosts, NFKC-normalised characters) depends on the Python version. It is the `netlocError` function of `Io`, and `repr` of the URL is the `repr` function.
- JSON decoding: `json.loads` is the `parse` function. It returns a value or the `JSONDecodeError` text. JSON floats are not modelled, because TestRail ids and status codes are integers.
- Rendering: `str()` of non-string JSON values is the `show` function.
- Base64: `base64.b64encode` together with the UTF-8 encoding around it is the `b64` function. All strings are sequences of characters. A successful body that is not UTF-8 fails inside the `try` and is wrapped like any other failure, the `TransportFailure` outcome. An error body that is not UTF-8 is the `HttpErrorUnreadable` outcome.
- The `testrail_api` library: its constructor and its endpoints are seen only through the logged calls and the `respond` oracle. It is foreign code, and the constructor is assumed not to raise.
- Plugin glue: `goose_mcp` tool registration and `setup.py` packaging are framework glue and build metadata.
- The unused `TestRailClient` built in `get_failed_and_blocked` (testrail.py:133-137): it has no effect on behaviour.
- The spreadsheet write: `export_to_spreadsheet` never writes anything. Only its record is modelled.
- Classify.GetFailedAndBlocked: receives test records (`id`, `status_id`, `latest_result`) that are already decoded. The `KeyError`/`TypeError` raised for a test dict missing `status_id` or `id` is not modelled. A `results` field that is not a list is handled by Queries.ResultList. The Python code mutates the fetched dicts in place; the model returns new records.
- TestRail.GetTests: returns the `tests` field as a JSON value. The conversion of that value into the test records the classification takes is not modelled, for the reason given above.
- TestRail.ClientOf: the standalone functions read `config['base_url']`, `config['username']` and `config['password']` from a typed `Config`. The `KeyError` of a missing key is not modelled.
- Extension.Initialize: assumes `from testrail_api import TestRailAPI` (goose_testrail/__init__.py:18) succeeds. `setup.py` does not declare that package. Where it is missing, `initialize` raises `ModuleNotFoundError` before any field is written, leaving the extension unchanged. The model does not produce that outcome, because whether the package is installed lies outside the code.

## Behaviour worth knowing

The model follows the code in each of these points:

- A failed `initialize` overwrites the three fields but never resets `client`. An extension that was already initialised therefore keeps its old client after a failed re-initialisation; it does not become uninitialised.
- An HTTP error does not always carry the remote error message. A JSON error body that is not an object makes `.get` raise `AttributeError` instead.
- The raise inside the `HTTPError` handler is not caught by the sibling `except Exception` clause. So API errors keep the `TestRail API error: ` prefix and are not re-wrapped as access errors.
- For the same reason, a failure to read or decode an HTTP error's body (`e.read()` at testrail.py:60) escapes as it was raised, for example as `IncompleteRead` or `UnicodeDecodeError`.
- `Request(url, headers=headers)` is built before the `try`. A base URL without a scheme, such as `testrail.example.com` or the empty string, raises urllib's `ValueError` unwrapped, not an `Error accessing TestRail API: ...` exception.
- The extension has four tools: `get_projects`, `get_test_cases`, `create_test_run` and `add_test_result`. Listing or closing runs, an `include_all`/`case_ids` policy, an `is_completed` flag and further result fields do not exist in this code.

=== FILE: classify.dfy ===
/** `get_failed_and_blocked`: one ordered pass over a run's tests that keeps the failed
    (status 5) and blocked (status 2) tests in two sequences, fetching each kept test's
    results and attaching the most recent one; and `export_to_spreadsheet`, which only
    assembles a record around that classification. */
module Classify {

  import opened Outcomes
  import opened Json

  /** The TestRail status codes the classification looks for. */
  const Failed := 5
  const Blocked := 2

  /** A test of a run: its identifier, its status code and, once attached, its most
      recent result (the `latest_result` key). */
  datatype Test = Test(id: int, statusId: int, latestResult: Option<Json>)

  /** The `{'failed': ..., 'blocked': ...}` dictionary. */
  datatype Buckets = Buckets(failed: seq<Test>, blocked: seq<Test>)

  /** Whether the results of a test with this status are fetched. */
  predicate IsKept(t: Test) {
    t.statusId == Failed || t.statusId == Blocked
  }

  /** `t` with the head of its results as `latest_result` when there is one; `t` unchanged
      when the list is empty. */
  function Attach(t: Test, results: seq<Json>): (r: Test)
    ensures r.id == t.id && r.statusId == t.statusId
    ensures |results| > 0 ==> r.latestResult == Some(results[0])
    ensures |results| == 0 ==> r == t
  {
    if |results| > 0 then t.(latestResult := Some(results[0])) else t
  }

  /** The tests of status `status`, in input order. */
  function WithStatus(tests: seq<Test>, status: int): seq<Test>
    decreases |tests|
  {
    if |tests| == 0 then []
    else
      var last := tests[|tests| - 1];
      WithStatus(tests[..|tests| - 1], status) + (if last.statusId == status then [last] else [])
  }

  /** The identifiers whose results are fetched, one per failed or blocked test, in
      input order. */
  function Queried(tests: seq<Test>): seq<int>
    decreases |tests|
  {
    if |tests| == 0 then []
    else
      var last := tests[|tests| - 1];
      Queried(tests[..|tests| - 1]) + (if IsKept(last) then [last.id] else [])
  }

  /** Every fetch of `ids` succeeds. */
  predicate AllFetched(ids: seq<int>, resultsFor: int -> Result<seq<Json>, Error>) {
    forall i | 0 <= i < |ids| :: resultsFor(ids[i]).Success?
  }

  /** `out` is `src` test by test with each test's latest result attached. */
  predicate Enriched(out: seq<Test>, src: seq<Test>, resultsFor: int -> Result<seq<Json>, Error>) {
    && |out| == |src|
    && forall j | 0 <= j < |src| ::
         resultsFor(src[j].id).Success? && out[j] == Attach(src[j], resultsFor(src[j].id).value)
  }

  /** `b` is the classification of `tests`: the failed tests and the blocked tests, each
      in input order and each with its latest result attached. */
  predicate IsClassification(tests: seq<Test>, resultsFor: int -> Result<seq<Json>, Error>, b: Buckets) {
    && Enriched(b.failed, WithStatus(tests, Failed), resultsFor)
    && Enriched(b.blocked, WithStatus(tests, Blocked), resultsFor)
  }

  /** The queried identifiers of a prefix of the run are a prefix of the queried
      identifiers of the whole run. */
  lemma {:induction false} QueriedPrefix(tests: seq<Test>, k: nat)
    requires k <= |tests|
    ensures Queried(tests[..k]) <= Queried(tests)
    decreases |tests| - k
  {
    if k < |tests| {
      QueriedPrefix(tests, k + 1);
      assert tests[..k + 1][..k] == tests[..k];
    } else {
      assert tests[..k] == tests;
    }
  }

  /** One more test extends the queried identifiers by its id when it is kept. */
  lemma QueriedStep(tests: seq<Test>, i: nat)
    requires i < |tests|
    ensures Queried(tests[..i + 1]) == Queried(tests[..i]) + (if IsKept(tests[i]) then [tests[i].id] else [])
  {
    assert tests[..i + 1][..i] == tests[..i];
  }

  /** One more test extends a bucket by that test when it has the bucket's status. */
  lemma WithStatusStep(tests: seq<Test>, i: nat, status: int)
    requires i < |tests|
    ensures WithStatus(tests[..i + 1], status) ==
            WithStatus(tests[..i], status) + (if tests[i].statusId == status then [tests[i]] else [])
  {
    assert tests[..i + 1][..i] == tests[..i];
  }

  /** Enriching one more test whose fetch succeeded keeps the output enriched. */
  lemma EnrichedStep(out: seq<Test>, src: seq<Test>, t: Test, resultsFor: int -> Result<seq<Json>, Error>)
    requires Enriched(out, src, resultsFor)
    requires resultsFor(t.id).Success?
    ensures Enriched(out + [Attach(t, resultsFor(t.id).value)], src + [t], resultsFor)
  {
  }

  /** A fetch that fails at the `k`-th queried identifier means not every fetch of the run
      succeeds. */
  lemma FailedFetchBreaksRun(tests: seq<Test>, k: nat, resultsFor: int -> Result<seq<Json>, Error>)
    requires k <= |tests|
    requires |Queried(tests[..k])| > 0
    requires resultsFor(Queried(tests[..k])[|Queried(tests[..k])| - 1]).Failure?
    ensures !AllFetched(Queried(tests), resultsFor)
  {
    QueriedPrefix(tests, k);
    var q := Queried(tests[..k]);
    assert Queried(tests)[|q| - 1] == q[|q| - 1];
  }

  /** `get_failed_and_blocked(run_id, config)`, given the outcome of `get_tests` and the
      results fetch. `fetched` records, in order, the identifiers whose results were
      requested. The first failing request aborts the pass with its error and no partial
      classification. */
  method GetFailedAndBlocked(tests: Result<seq<Test>, Error>, resultsFor: int -> Result<seq<Json>, Error>)
    returns (outcome: Result<Buckets, Error>, fetched: seq<int>)
    ensures tests.Failure? ==> outcome == Failure(tests.error) && fetched == []
    ensures tests.Success? ==> fetched <= Queried(tests.value)
    ensures tests.Success? ==> (outcome.Success? <==> AllFetched(Queried(tests.value), resultsFor))
    ensures outcome.Success? ==>
              && tests.Success?
              && fetched == Queried(tests.value)
              && IsClassification(tests.value, resultsFor, outcome.value)
    ensures tests.Success? && outcome.Failure? ==>
              && |fetched| > 0
              && AllFetched(fetched[..|fetched| - 1], resultsFor)
              && resultsFor(fetched[|fetched| - 1]) == Failure(outcome.error)
  {
    if tests.Failure? {
      return Failure(tests.error), [];
    }
    var ts := tests.value;
    var failed: seq<Test> := [];
    var blocked: seq<Test> := [];
    fetched := [];
    var i := 0;
    while i < |ts|
      invariant 0 <= i <= |ts|
      invariant fetched == Queried(ts[..i])
      invariant AllFetched(fetched, resultsFor)
      invariant Enriched(failed, WithStatus(ts[..i], Failed), resultsFor)
      invariant Enriched(blocked, WithStatus(ts[..i], Blocked), resultsFor)
    {
      var t := ts[i];
      QueriedStep(ts, i);
      WithStatusStep(ts, i, Failed);
      WithStatusStep(ts, i, Blocked);
      if IsKept(t) {
        var results := resultsFor(t.id);
        var before := fetched;
        fetched := fetched + [t.id];
        if results.Failure? {
          QueriedPrefix(ts, i + 1);
          FailedFetchBreaksRun(ts, i + 1, resultsFor);
          assert fetched[..|fetched| - 1] == before;
          return Failure(results.error), fetched;
        }
        if t.statusId == Failed {
          EnrichedStep(failed, WithStatus(ts[..i], Failed), t, resultsFor);
          failed := failed + [Attach(t, results.value)];
        } else {
          EnrichedStep(blocked, WithStatus(ts[..i], Blocked), t, resultsFor);
          blocked := blocked + [Attach(t, results.value)];
        }
      }
      i := i + 1;
    }
    assert ts[..i] == ts;
    return Success(Buckets(failed, blocked)), fetched;
  }

  /** The positions of the tests of status `status`, in increasing order. */
  function Positions(tests: seq<Test>, status: int): (p: seq<nat>)
    ensures forall j | 0 <= j < |p| :: p[j] < |tests| && tests[p[j]].statusId == status
    ensures forall j, k | 0 <= j < k < |p| :: p[j] < p[k]
    decreases |tests|
  {
    if |tests| == 0 then []
    else
      var n := |tests| - 1;
      var rest := Positions(tests[..n], status);
      assert forall j | 0 <= j < |rest| :: tests[rest[j]] == tests[..n][rest[j]];
      if tests[n].statusId == status then rest + [n] else rest
  }

  /** The positions list exactly the tests `WithStatus` keeps, so `WithStatus` is a
      subsequence of the tests, in input order. */
  lemma {:induction false} PositionsMatchBucket(tests: seq<Test>, status: int)
    ensures var p := Positions(tests, status);
            && |p| == |WithStatus(tests, status)|
            && forall j | 0 <= j < |p| :: WithStatus(tests, status)[j] == tests[p[j]]
    decreases |tests|
  {
    if |tests| > 0 {
      var n := |tests| - 1;
      var init := tests[..n];
      PositionsMatchBucket(init, status);
      var rest := Positions(init, status);
      var w := WithStatus(init, status);
      var p := Positions(tests, status);
      var wt := WithStatus(tests, status);
      if tests[n].statusId == status {
        assert p == rest + [n];
        assert wt == w + [tests[n]];
        forall j | 0 <= j < |p|
          ensures wt[j] == tests[p[j]]
        {
          if j < |rest| {
            assert wt[j] == w[j] == init[rest[j]];
            assert p[j] == rest[j];
          }
        }
      } else {
        assert p == rest;
        assert wt == w;
        forall j | 0 <= j < |p|
          ensures wt[j] == tests[p[j]]
        {
          assert wt[j] == init[rest[j]];
        }
      }
    }
  }

  /** The positions cover every test of status `status`: no such test is left out of its
      bucket. */
  lemma {:induction false} PositionsCover(tests: seq<Test>, status: int)
    ensures forall i | 0 <= i < |tests| && tests[i].statusId == status :: i in Positions(tests, status)
    decreases |tests|
  {
    if |tests| > 0 {
      var n := |tests| - 1;
      var init := tests[..n];
      PositionsCover(init, status);
      var rest := Positions(init, status);
      var p := Positions(tests, status);
      assert forall i | 0 <= i < n :: tests[i] == init[i];
      if tests[n].statusId == status {
        assert p == rest + [n];
        assert p[|rest|] == n;
      }
    }
  }

  /** A test is in the `status` bucket exactly when it is one of the tests and has that
      status. */
  lemma WithStatusMembers(tests: seq<Test>, status: int, t: Test)
    ensures t in WithStatus(tests, status) <==> t in tests && t.statusId == status
  {
  }

  /** The fetches are exactly one per bucketed test, and the two buckets together hold at
      most the tests of the run. */
  lemma {:induction false} BucketSizes(tests: seq<Test>)
    ensures |WithStatus(tests, Failed)| + |WithStatus(tests, Blocked)| == |Queried(tests)|
    ensures |Queried(tests)| <= |tests|
    decreases |tests|
  {
    if |tests| > 0 {
      BucketSizes(tests[..|tests| - 1]);
    }
  }

  /** The two buckets never share a test. */
  lemma BucketsDisjoint(tests: seq<Test>)
    ensures multiset(WithStatus(tests, Failed)) * multiset(WithStatus(tests, Blocked)) == multiset{}
  {
    var f := WithStatus(tests, Failed);
    var b := WithStatus(tests, Blocked);
    forall t | t in multiset(f)
      ensures t !in multiset(b)
    {
      WithStatusMembers(tests, Failed, t);
      WithStatusMembers(tests, Blocked, t);
    }
  }

  /** Attaching a result never changes a test's identifier or status, so every test of the
      failed bucket has status 5, every test of the blocked bucket status 2, and no test is
      in both. */
  lemma ClassifiedStatuses(tests: seq<Test>, resultsFor: int -> Result<seq<Json>, Error>, b: Buckets)
    requires IsClassification(tests, resultsFor, b)
    ensures forall j | 0 <= j < |b.failed| :: b.failed[j].statusId == Failed
    ensures forall j | 0 <= j < |b.blocked| :: b.blocked[j].statusId == Blocked
    ensures multiset(b.failed) * multiset(b.blocked) == multiset{}
  {
    var f := WithStatus(tests, Failed);
    var bl := WithStatus(tests, Blocked);
    forall j | 0 <= j < |b.failed|
      ensures b.failed[j].statusId == Failed
    {
      WithStatusMembers(tests, Failed, f[j]);
    }
    forall j | 0 <= j < |b.blocked|
      ensures b.blocked[j].statusId == Blocked
    {
      WithStatusMembers(tests, Blocked, bl[j]);
    }
    forall t | t in multiset(b.failed)
      ensures t !in multiset(b.blocked)
    {
      var j :| 0 <= j < |b.failed| && b.failed[j] == t;
    }
  }

  /** The classification is determined by the tests and the fetch: two classifications of
      the same run are equal. */
  lemma ClassificationUnique(tests: seq<Test>, resultsFor: int -> Result<seq<Json>, Error>, b1: Buckets, b2: Buckets)
    requires IsClassification(tests, resultsFor, b1)
    requires IsClassification(tests, resultsFor, b2)
    ensures b1 == b2
  {
  }

  /** The run of three tests with statuses 5, 1 and 2: test 1 is failed, test 3 blocked,
      and the results of test 2 are never requested. */
  lemma ThreeTestRun()
    ensures var tests := [Test(1, 5, None), Test(2, 1, None), Test(3, 2, None)];
            && Queried(tests) == [1, 3]
            && WithStatus(tests, Failed) == [Test(1, 5, None)]
            && WithStatus(tests, Blocked) == [Test(3, 2, None)]
  {
    var tests := [Test(1, 5, None), Test(2, 1, None), Test(3, 2, None)];
    var two := tests[..2];
    var one := two[..1];
    assert two == [Test(1, 5, None), Test(2, 1, None)];
    assert one == [Test(1, 5, None)];
    assert one[..0] == [];
    assert Queried(one) == [1];
    assert Queried(two) == [1];
    assert WithStatus(one, Failed) == [Test(1, 5, None)];
    assert WithStatus(two, Failed) == [Test(1, 5, None)];
    assert WithStatus(one, Blocked) == [];
    assert WithStatus(two, Blocked) == [];
  }

  /** The record `export_to_spreadsheet` returns in place of writing to a spreadsheet. */
  datatype ExportRecord = ExportRecord(run: Json, results: Buckets, spreadsheetId: string, status: string)

  const ExportStatus := "Would export these results to the specified Google Sheet"

  /** `export_to_spreadsheet(run_id, spreadsheet_id, config)`: fetches the run, then
      classifies its tests, and returns both with the spreadsheet id and a fixed status
      text. A failed run fetch aborts before any test is looked at. */
  method ExportToSpreadsheet(
    run: Result<Json, Error>,
    tests: Result<seq<Test>, Error>,
    resultsFor: int -> Result<seq<Json>, Error>,
    spreadsheetId: string)
    returns (outcome: Result<ExportRecord, Error>, fetched: seq<int>)
    ensures run.Failure? ==> outcome == Failure(run.error) && fetched == []
    ensures run.Success? && tests.Failure? ==> outcome == Failure(tests.error) && fetched == []
    ensures run.Success? && tests.Success? ==>
              (outcome.Success? <==> AllFetched(Queried(tests.value), resultsFor))
    ensures outcome.Success? ==>
              && run.Success? && tests.Success?
              && outcome.value.run == run.value
              && outcome.value.spreadsheetId == spreadsheetId
              && outcome.value.status == ExportStatus
              && IsClassification(tests.value, resultsFor, outcome.value.results)
              && fetched == Queried(tests.value)
    ensures run.Success? && tests.Success? ==> fetched <= Queried(tests.value)
    ensures run.Success? && tests.Success? && outcome.Failure? ==>
              && |fetched| > 0
              && AllFetched(fetched[..|fetched| - 1], resultsFor)
              && resultsFor(fetched[|fetched| - 1]) == Failure(outcome.error)
  {
    if run.Failure? {
      return Failure(run.error), [];
    }
    var classified;
    classified, fetched := GetFailedAndBlocked(tests, resultsFor);
    match classified
    case Failure(e) =>
      outcome := Failure(e);
    case Success(b) =>
      outcome := Success(ExportRecord(run.value, b, spreadsheetId, ExportStatus));
  }
}

=== FILE: extension.dfy ===
/** The assistant extension: a two-state object that is uninitialised until `initialize`
    receives all three credentials, and tools that are refused before that and otherwise
    shape a payload and hand it to the `testrail_api` client. The client library is seen
    only through the calls made on it. */
module Extension {

  import opened Outcomes
  import opened Json

  /** The `TestRailAPI` object, known by the arguments it was built with. */
  datatype Handle = Handle(baseUrl: Json, username: Json, password: Json)

  /** A `TestRailExtension`: the client (absent until a successful `initialize`) and the
      three configuration fields. */
  datatype State = State(client: Option<Handle>, baseUrl: Json, username: Json, apiKey: Json)

  /** A call made on the client library. */
  datatype Call =
    | Construct(baseUrl: Json, username: Json, password: Json)  // TestRailAPI(base_url=, username=, password=)
    | ListProjects                                               // client.projects.get_projects()
    | ListCases(projectId: int, suiteId: Option<int>)            // client.cases.get_cases(project_id[, suite_id=])
    | AddRun(projectId: int, data: map<string, Json>)            // client.runs.add_run(project_id, data)
    | AddResult(testId: int, data: map<string, Json>)            // client.results.add_result(test_id, data)

  /** A tool invocation with its arguments. */
  datatype Tool =
    | GetProjects
    | GetTestCases(projectId: int, suiteId: Option<int>)
    | CreateTestRun(projectId: int, name: string, suiteId: Option<int>, description: Option<string>)
    | AddTestResult(testId: int, statusId: int, comment: Option<string>)

  const MissingConfig := Error(ValueError, "TestRail configuration missing required values")
  const NotInitialized := Error(RuntimeError, "TestRail client not initialized")

  /** A newly constructed extension: no client and no configuration. */
  function Fresh(): (s: State)
    ensures s.client.None?
    ensures s.baseUrl == JNull && s.username == JNull && s.apiKey == JNull
  {
    State(None, JNull, JNull, JNull)
  }

  /** The new state after `initialize`, the library call it made, and whether it raised. */
  datatype InitOutcome = InitOutcome(state: State, call: Option<Call>, result: Result<(), Error>)

  /** `initialize(config)`: the three fields are overwritten with `config.get(...)` whatever
      happens next; when one of them is missing or falsy a `ValueError` is raised and the
      client is left as it was, otherwise one client is constructed with the API key as
      its password. */
  function Initialize(s: State, config: map<string, Json>): (r: InitOutcome)
    ensures r.state.baseUrl == Lookup(config, "base_url")
    ensures r.state.username == Lookup(config, "username")
    ensures r.state.apiKey == Lookup(config, "api_key")
    ensures r.result.Success? <==>
              && Truthy(Lookup(config, "base_url"))
              && Truthy(Lookup(config, "username"))
              && Truthy(Lookup(config, "api_key"))
    ensures r.result.Failure? ==>
              r.result.error == MissingConfig && r.call.None? && r.state.client == s.client
    ensures r.result.Success? ==>
              var h := Handle(r.state.baseUrl, r.state.username, r.state.apiKey);
              r.state.client == Some(h) && r.call == Some(Construct(h.baseUrl, h.username, h.password))
  {
    var b := Lookup(config, "base_url");
    var u := Lookup(config, "username");
    var k := Lookup(config, "api_key");
    var s' := s.(baseUrl := b, username := u, apiKey := k);
    if !(Truthy(b) && Truthy(u) && Truthy(k)) then
      InitOutcome(s', None, Failure(MissingConfig))
    else
      InitOutcome(s'.(client := Some(Handle(b, u, k))), Some(Construct(b, u, k)), Success(()))
  }

  /** An optional argument as Python's `if x:` sees it: kept only when truthy. */
  function KeepInt(o: Option<int>): (r: Option<int>)
    ensures r.Some? <==> Truthy(OfInt(o))
    ensures r.Some? ==> r == o
  {
    if Truthy(OfInt(o)) then o else None
  }

  function KeepStr(o: Option<string>): (r: Option<string>)
    ensures r.Some? <==> Truthy(OfStr(o))
    ensures r.Some? ==> r == o
  {
    if Truthy(OfStr(o)) then o else None
  }

  /** The `create_test_run` payload: always `name` and `description` (which may be
      `None`), `suite_id` only when it is truthy, nothing else. */
  function RunPayload(name: string, suiteId: Option<int>, description: Option<string>): (data: map<string, Json>)
    ensures "name" in data && data["name"] == JStr(name)
    ensures "description" in data && data["description"] == OfStr(description)
    ensures "suite_id" in data <==> Truthy(OfInt(suiteId))
    ensures "suite_id" in data ==> data["suite_id"] == OfInt(suiteId)
    ensures data.Keys <= {"name", "description", "suite_id"}
  {
    var base := map["name" := JStr(name), "description" := OfStr(description)];
    if Truthy(OfInt(suiteId)) then base["suite_id" := OfInt(suiteId)] else base
  }

  /** The `add_test_result` payload: always `status_id`, `comment` only when it is truthy
      (a non-empty string), nothing else. */
  function ResultPayload(statusId: int, comment: Option<string>): (data: map<string, Json>)
    ensures "status_id" in data && data["status_id"] == JNum(statusId)
    ensures "comment" in data <==> Truthy(OfStr(comment))
    ensures "comment" in data ==> data["comment"] == OfStr(comment)
    ensures data.Keys <= {"status_id", "comment"}
  {
    var base := map["status_id" := JNum(statusId)];
    if Truthy(OfStr(comment)) then base["comment" := OfStr(comment)] else base
  }

  /** What the receiving side reads out of a run payload: name, suite and description,
      or nothing when the payload is not of that shape. */
  function ReadRunPayload(data: map<string, Json>): Option<(string, Option<int>, Option<string>)> {
    if "name" !in data || !data["name"].JStr? || "description" !in data then None
    else if !(data["description"].JStr? || data["description"].JNull?) then None
    else if "suite_id" in data && !data["suite_id"].JNum? then None
    else
      var suite := if "suite_id" in data then Some(data["suite_id"].n) else None;
      var description := if data["description"].JStr? then Some(data["description"].s) else None;
      Some((data["name"].s, suite, description))
  }

  /** What the receiving side reads out of a result payload: status and comment. */
  function ReadResultPayload(data: map<string, Json>): Option<(int, Option<string>)> {
    if "status_id" !in data || !data["status_id"].JNum? then None
    else if "comment" in data && !data["comment"].JStr? then None
    else Some((data["status_id"].n, if "comment" in data then Some(data["comment"].s) else None))
  }

  /** The run payload carries its arguments exactly, except that a falsy suite id (`0` as
      well as `None`) arrives as no suite at all. */
  lemma RunPayloadRoundTrip(name: string, suiteId: Option<int>, description: Option<string>)
    ensures ReadRunPayload(RunPayload(name, suiteId, description)) == Some((name, KeepInt(suiteId), description))
  {
  }

  /** The result payload carries its arguments exactly, except that a falsy comment (the
      empty string as well as `None`) arrives as no comment at all. */
  lemma ResultPayloadRoundTrip(statusId: int, comment: Option<string>)
    ensures ReadResultPayload(ResultPayload(statusId, comment)) == Some((statusId, KeepStr(comment)))
  {
  }

  /** The library call a tool makes once the client exists: never a construction, and one
      from which the tool is read back with its falsy optional arguments dropped. */
  function CallFor(tool: Tool): (call: Call)
    ensures !call.Construct?
    ensures ToolOf(call) == Some(Normalize(tool))
  {
    match tool
    case GetProjects => ListProjects
    case GetTestCases(p, suite) => ListCases(p, KeepInt(suite))
    case CreateTestRun(p, name, suite, description) => AddRun(p, RunPayload(name, suite, description))
    case AddTestResult(t, status, comment) => AddResult(t, ResultPayload(status, comment))
  }

  /** The tool a library call stands for, read back from its arguments. */
  function ToolOf(call: Call): Option<Tool> {
    match call
    case Construct(_, _, _) => None
    case ListProjects => Some(GetProjects)
    case ListCases(p, suite) => Some(GetTestCases(p, suite))
    case AddRun(p, data) =>
      (match ReadRunPayload(data)
       case None => None
       case Some(args) => Some(CreateTestRun(p, args.0, args.1, args.2)))
    case AddResult(t, data) =>
      (match ReadResultPayload(data)
       case None => None
       case Some(args) => Some(AddTestResult(t, args.0, args.1)))
  }

  /** A tool with its falsy optional arguments treated as absent. */
  function Normalize(tool: Tool): Tool {
    match tool
    case GetProjects => GetProjects
    case GetTestCases(p, suite) => GetTestCases(p, KeepInt(suite))
    case CreateTestRun(p, name, suite, description) => CreateTestRun(p, name, KeepInt(suite), description)
    case AddTestResult(t, status, comment) => AddTestResult(t, status, KeepStr(comment))
  }

  /** Every tool call reaches the library with all of its arguments intact, save for the
      falsy optional ones, which are dropped; two tools make the same call exactly when they
      agree once those are dropped. */
  lemma CallForRoundTrip(tool: Tool, other: Tool)
    ensures ToolOf(CallFor(tool)) == Some(Normalize(tool))
    ensures CallFor(tool) == CallFor(other) <==> Normalize(tool) == Normalize(other)
  {
  }

  /** What a tool invocation returns and the library call it made, if any. */
  datatype ToolOutcome = ToolOutcome(result: Result<Json, Error>, call: Option<Call>)

  /** A tool invocation. Without a client it raises `RuntimeError` and calls nothing;
      with one it makes exactly its call and returns the library's answer (or error)
      unchanged. */
  function Invoke(s: State, tool: Tool, respond: (Handle, Call) -> Result<Json, Error>): (r: ToolOutcome)
    ensures s.client.None? ==> r.result == Failure(NotInitialized) && r.call.None?
    ensures s.client.Some? ==>
              && r.call == Some(CallFor(tool))
              && r.result == respond(s.client.value, r.call.value)
  {
    match s.client
    case None => ToolOutcome(Failure(NotInitialized), None)
    case Some(h) => ToolOutcome(respond(h, CallFor(tool)), Some(CallFor(tool)))
  }

  /** One step of a session: an `initialize` or a tool invocation. */
  datatype Op = Init(config: map<string, Json>) | Use(tool: Tool)

  /** The state after a sequence of operations and the library calls they made, in order. */
  datatype Trace = Trace(state: State, calls: seq<Call>)

  /** One operation makes at most one library call; a tool call is made only with a
      client, and a client comes into being only by being constructed. */
  function Apply(s: State, op: Op, respond: (Handle, Call) -> Result<Json, Error>): (r: Trace)
    ensures |r.calls| <= 1
    ensures Guarded(r.calls, s.client.Some?)
    ensures r.state.client.Some? <==> s.client.Some? || HasConstruct(r.calls)
  {
    match op
    case Init(config) =>
      var r := Initialize(s, config);
      var calls := if r.call.Some? then [r.call.value] else [];
      assert r.call.Some? ==> calls[0].Construct?;
      Trace(r.state, calls)
    case Use(tool) =>
      var r := Invoke(s, tool, respond);
      Trace(s, if r.call.Some? then [r.call.value] else [])
  }

  function Session(s: State, ops: seq<Op>, respond: (Handle, Call) -> Result<Json, Error>): Trace
    decreases |ops|
  {
    if |ops| == 0 then Trace(s, [])
    else
      var first := Apply(s, ops[0], respond);
      var rest := Session(first.state, ops[1..], respond);
      Trace(rest.state, first.calls + rest.calls)
  }

  predicate HasConstruct(calls: seq<Call>) {
    exists i | 0 <= i < |calls| :: calls[i].Construct?
  }

  /** Every call other than a construction is made when a client already existed: either
      one existed at the start (`initialized`) or an earlier call constructed it. */
  predicate Guarded(calls: seq<Call>, initialized: bool) {
    forall i | 0 <= i < |calls| && !calls[i].Construct? ::
      initialized || exists j | 0 <= j < i :: calls[j].Construct?
  }

  lemma GuardedConcat(a: seq<Call>, b: seq<Call>, initialized: bool)
    requires Guarded(a, initialized)
    requires Guarded(b, initialized || HasConstruct(a))
    ensures Guarded(a + b, initialized)
  {
    var ab := a + b;
    forall i | 0 <= i < |ab| && !ab[i].Construct? && !initialized
      ensures exists j | 0 <= j < i :: ab[j].Construct?
    {
      if i < |a| {
        assert ab[i] == a[i];
        var j :| 0 <= j < i && a[j].Construct?;
        assert ab[j] == a[j];
      } else if HasConstruct(a) {
        var j :| 0 <= j < |a| && a[j].Construct?;
        assert ab[j] == a[j];
      } else {
        assert ab[i] == b[i - |a|];
        var j :| 0 <= j < i - |a| && b[j].Construct?;
        assert ab[j + |a|] == b[j];
      }
    }
  }

  lemma HasConstructConcat(a: seq<Call>, b: seq<Call>)
    ensures HasConstruct(a + b) <==> HasConstruct(a) || HasConstruct(b)
  {
    var ab := a + b;
    if HasConstruct(a) {
      var j :| 0 <= j < |a| && a[j].Construct?;
      assert ab[j] == a[j];
    }
    if HasConstruct(b) {
      var j :| 0 <= j < |b| && b[j].Construct?;
      assert ab[|a| + j] == b[j];
    }
    if HasConstruct(ab) {
      var j :| 0 <= j < |ab| && ab[j].Construct?;
      if j >= |a| {
        assert b[j - |a|] == ab[j];
      }
    }
  }

  /** Over any session, no tool reaches the library before a client exists, and the client
      exists at the end exactly when it existed at the start or the session constructed one. */
  lemma {:induction false} SessionGuarded(s: State, ops: seq<Op>, respond: (Handle, Call) -> Result<Json, Error>)
    ensures Guarded(Session(s, ops, respond).calls, s.client.Some?)
    ensures Session(s, ops, respond).state.client.Some? <==>
              s.client.Some? || HasConstruct(Session(s, ops, respond).calls)
    decreases |ops|
  {
    if |ops| > 0 {
      var first := Apply(s, ops[0], respond);
      var rest := Session(first.state, ops[1..], respond);
      SessionGuarded(first.state, ops[1..], respond);
      GuardedConcat(first.calls, rest.calls, s.client.Some?);
      HasConstructConcat(first.calls, rest.calls);
    }
  }

  /** From a fresh extension, every tool call in the library log comes after a client
      construction. */
  lemma FreshSessionGuarded(ops: seq<Op>, respond: (Handle, Call) -> Result<Json, Error>)
    ensures var calls := Session(Fresh(), ops, respond).calls;
            forall i | 0 <= i < |calls| && !calls[i].Construct? ::
              exists j | 0 <= j < i :: calls[j].Construct?
  {
    SessionGuarded(Fresh(), ops, respond);
  }
}

=== FILE: json.dfy ===
/** JSON documents as the TestRail API returns them, and Python's truthiness of them. */
module Json {

  import Outcomes

  /** A decoded JSON value. Objects are Python dicts keyed by strings; numbers are integers
      (TestRail identifiers and status codes). */
  datatype Json =
    | JNull
    | JBool(b: bool)
    | JNum(n: int)
    | JStr(s: string)
    | JArr(items: seq<Json>)
    | JObj(fields: map<string, Json>)

  /** Python's `bool(v)`: `None`, `False`, `0`, `""`, `[]` and `{}` are false. */
  function Truthy(v: Json): (t: bool)
    ensures !t <==> v in {JNull, JBool(false), JNum(0), JStr(""), JArr([]), JObj(map[])}
  {
    match v
    case JNull => false
    case JBool(b) => b
    case JNum(n) => n != 0
    case JStr(s) => |s| > 0
    case JArr(items) => |items| > 0
    case JObj(fields) => |fields| > 0
  }

  /** `dict.get(key)`: the value under `key`, or `None` when the key is absent. */
  function Lookup(m: map<string, Json>, key: string): (v: Json)
    ensures key in m ==> v == m[key]
    ensures key !in m ==> v == JNull
  {
    if key in m then m[key] else JNull
  }

  /** The Python class name of a decoded JSON value, as `type(v).__name__` gives it. */
  function TypeName(v: Json): (n: string)
    ensures n == "NoneType" <==> v.JNull?
    ensures n == "bool" <==> v.JBool?
    ensures n == "int" <==> v.JNum?
    ensures n == "str" <==> v.JStr?
    ensures n == "list" <==> v.JArr?
    ensures n == "dict" <==> v.JObj?
  {
    match v
    case JNull => "NoneType"
    case JBool(_) => "bool"
    case JNum(_) => "int"
    case JStr(_) => "str"
    case JArr(_) => "list"
    case JObj(_) => "dict"
  }

  /** `str(v)` / f-string formatting: a string is rendered as itself, every other value by
      `show`, the library's rendering of Python reprs. */
  function PyStr(v: Json, show: Json -> string): (r: string)
    ensures v.JStr? ==> r == v.s
  {
    if v.JStr? then v.s else show(v)
  }

  /** An optional integer argument lifted to the value Python sees (`None` or the int). */
  function OfInt(o: Outcomes.Option<int>): (v: Json)
    ensures o.None? <==> v == JNull
    ensures o.Some? ==> v == JNum(o.value)
  {
    match o
    case None => JNull
    case Some(n) => JNum(n)
  }

  /** An optional string argument lifted to the value Python sees (`None` or the str). */
  function OfStr(o: Outcomes.Option<string>): (v: Json)
    ensures o.None? <==> v == JNull
    ensures o.Some? ==> v == JStr(o.value)
  {
    match o
    case None => JNull
    case Some(s) => JStr(s)
  }
}

=== FILE: outcomes.dfy ===
/** Optional values, results that may carry an error, and the Python exceptions the
    modelled code raises. */
module Outcomes {

  /** A value that may be absent (Python's `None`). */
  datatype Option<+T> = None | Some(value: T)

  /** Either a value or the error that aborted the computation. */
  datatype Result<+T, +E> = Success(value: T) | Failure(error: E)

  /** The exception classes raised by the modelled code. An error raised by foreign code
      (the transport, the URL parser, the `testrail_api` library) keeps its message and is
      given one of these kinds, `Other` naming any class not listed here. */
  datatype ExceptionKind =
    | Exception
    | AttributeError
    | KeyError
    | TypeError
    | ValueError
    | RuntimeError
    | Other(name: string)

  /** A raised exception: its class and `str()` of it. */
  datatype Error = Error(kind: ExceptionKind, message: string)
}

=== FILE: queries.dfy ===
/** `get_failed_and_blocked` wired to the real results query: each kept test's results
    come from `get_results_for_test`, and the requests it builds are the client's
    `get_results/<id>` URLs, one per queried test, in order. */
module Queries {

  import opened Outcomes
  import opened Json
  import opened TestRail
  import opened Classify

  /** What the pass reads from `get_results_for_test`'s return value with
      `if results: ... results[0]`. A list gives its items, and a falsy value gives none, so
      nothing is attached. Indexing a non-empty string gives its first character. A
      non-empty object has no key `0` and raises `KeyError`. A non-zero number or `True`
      cannot be indexed and raises `TypeError`. */
  function ResultList(results: Result<Json, Error>): (r: Result<seq<Json>, Error>)
    ensures results.Failure? ==> r == Failure(results.error)
    ensures results.Success? && results.value.JArr? ==> r == Success(results.value.items)
    ensures results.Success? && !Truthy(results.value) ==> r == Success([])
    ensures results.Success? && results.value.JStr? && |results.value.s| > 0 ==>
              r == Success([JStr([results.value.s[0]])])
    ensures results.Success? ==>
              (r.Failure? <==> Truthy(results.value) && (results.value.JObj? || results.value.JNum? || results.value.JBool?))
    ensures r.Failure? && results.Success? ==>
              r.error.kind == (if results.value.JObj? then KeyError else TypeError)
  {
    match results
    case Failure(e) => Failure(e)
    case Success(v) =>
      if !Truthy(v) then Success([])
      else
        match v
        case JArr(items) => Success(items)
        case JStr(s) => Success([JStr([s[0]])])
        case JObj(_) => Failure(Error(KeyError, "0"))
        case JNum(_) => Failure(Error(TypeError, "'int' object is not subscriptable"))
        case JBool(_) => Failure(Error(TypeError, "'bool' object is not subscriptable"))
        case JNull => Success([])
  }

  /** The results fetch the pass performs for a test id. */
  function ResultsFetch(cfg: Config, io: Io): int -> Result<seq<Json>, Error> {
    id => ResultList(GetResultsForTest(id, cfg, io))
  }

  /** The URLs of the results requests for `ids`, in order. */
  function ResultsUrls(cfg: Config, ids: seq<int>): (urls: seq<string>)
    ensures |urls| == |ids|
    ensures forall i | 0 <= i < |ids| :: EndpointOf(ClientOf(cfg), urls[i]) == Some(ResultsEndpoint(ids[i]))
  {
    seq(|ids|, i requires 0 <= i < |ids| => RequestUrl(ClientOf(cfg), ResultsEndpoint(ids[i])))
  }

  /** `requested` are the results URLs of the first `|requested|` of `ids`, in order. */
  predicate BuiltInOrder(cfg: Config, ids: seq<int>, requested: seq<string>) {
    && |requested| <= |ids|
    && forall i | 0 <= i < |requested| :: requested[i] == RequestUrl(ClientOf(cfg), ResultsEndpoint(ids[i]))
  }

  /** Requesting the results of a prefix of `ids` builds their URLs in order. */
  lemma PrefixBuiltInOrder(cfg: Config, ids: seq<int>, fetched: seq<int>)
    requires fetched <= ids
    ensures BuiltInOrder(cfg, ids, ResultsUrls(cfg, fetched))
  {
    var urls := ResultsUrls(cfg, fetched);
    forall i | 0 <= i < |urls|
      ensures urls[i] == RequestUrl(ClientOf(cfg), ResultsEndpoint(ids[i]))
    {
      assert fetched[i] == ids[i];
    }
  }

  /** Two results requests built in order for `ids` go to the same URL exactly when they
      are for the same test. */
  lemma BuiltUrlsIdentifyTests(cfg: Config, ids: seq<int>, requested: seq<string>)
    requires BuiltInOrder(cfg, ids, requested)
    ensures forall i, j | 0 <= i < |requested| && 0 <= j < |requested| ::
              requested[i] == requested[j] <==> ids[i] == ids[j]
  {
    forall i, j | 0 <= i < |requested| && 0 <= j < |requested|
      ensures requested[i] == requested[j] <==> ids[i] == ids[j]
    {
      QueryUrlsIdentify(ClientOf(cfg), ids[i], ids[j]);
    }
  }

  /** When every fetch but the last of a prefix of `ids` succeeded, the fetches for the
      ids before the last one succeeded. */
  lemma EarlierFetchesSucceeded(ids: seq<int>, fetched: seq<int>, resultsFor: int -> Result<seq<Json>, Error>)
    requires fetched <= ids && |fetched| > 0
    requires AllFetched(fetched[..|fetched| - 1], resultsFor)
    ensures forall i | 0 <= i < |fetched| - 1 :: resultsFor(ids[i]).Success?
  {
    forall i | 0 <= i < |fetched| - 1
      ensures resultsFor(ids[i]).Success?
    {
      assert fetched[..|fetched| - 1][i] == fetched[i] == ids[i];
    }
  }

  /** `get_failed_and_blocked(run_id, config)` given the outcome of `get_tests`: the
      classification, and the URLs of the results requests it built. The requests are the
      `get_results/<id>` URLs of the queried tests, in order, and stop at the first one that
      fails (`BuiltUrlsIdentifyTests`: two of them share a URL only when they are for the
      same test id). The last one built may be refused by `Request` before it is sent, when
      the base URL has no scheme. */
  method FailedAndBlockedRequests(tests: Result<seq<Test>, Error>, cfg: Config, io: Io)
    returns (outcome: Result<Buckets, Error>, requested: seq<string>)
    ensures tests.Failure? ==> outcome == Failure(tests.error) && requested == []
    ensures tests.Success? ==> BuiltInOrder(cfg, Queried(tests.value), requested)
    ensures outcome.Success? ==>
              && tests.Success?
              && |requested| == |Queried(tests.value)|
              && IsClassification(tests.value, ResultsFetch(cfg, io), outcome.value)
    ensures tests.Success? && outcome.Failure? ==>
              && |requested| > 0
              && (forall i | 0 <= i < |requested| - 1 :: ResultsFetch(cfg, io)(Queried(tests.value)[i]).Success?)
              && ResultsFetch(cfg, io)(Queried(tests.value)[|requested| - 1]) == Failure(outcome.error)
  {
    var fetched;
    outcome, fetched := GetFailedAndBlocked(tests, ResultsFetch(cfg, io));
    requested := ResultsUrls(cfg, fetched);
    if tests.Success? {
      PrefixBuiltInOrder(cfg, Queried(tests.value), fetched);
      if outcome.Failure? {
        EarlierFetchesSucceeded(Queried(tests.value), fetched, ResultsFetch(cfg, io));
      }
    }
  }
}

=== FILE: testrail.dfy ===
/** The standalone query module: a client that shapes an authenticated GET against the
    TestRail REST API, chooses the error raised for a failed request, and unwraps the
    `tests` and `results` lists. The network, JSON decoding and Base64 are functions held
    in an `Io` record. */
module TestRail {

  import opened Outcomes
  import opened Json
  import opened Text
  import opened Urls

  /** The credentials a caller passes (`base_url`, `username`, `password`). */
  datatype Config = Config(baseUrl: string, username: string, password: string)

  /** A constructed `TestRailClient`. */
  datatype Client = Client(baseUrl: string, username: string, password: string)

  /** An outgoing GET: the URL and its header map. */
  datatype Request = Request(url: string, headers: map<string, string>)

  /** What `urlopen` does with a request: a body, an `HTTPError` with its body, an
      `HTTPError` whose body cannot be read or decoded as UTF-8 (the exception `e.read()` or
      `.decode()` raises, such as `IncompleteRead` or `UnicodeDecodeError`), or any other
      failure with `str()` of the exception. */
  datatype Response =
    | Ok(body: string)
    | HttpError(code: int, body: string)
    | HttpErrorUnreadable(code: int, failure: Error)
    | TransportFailure(reason: string)

  /** The foreign functions the client calls.
      - `send`: `urlopen`, from request to response;
      - `parse`: `json.loads`, a value or the text of the `JSONDecodeError`;
      - `show`: `str()` of a JSON value that is not a string;
      - `b64`: Base64 of the UTF-8 bytes of a string, decoded back to text;
      - `repr`: Python's `repr` of a string;
      - `netlocError`: the `ValueError` text `urlparse` gives for a malformed network
        location, if any. */
  datatype Io = Io(
    send: Request -> Response,
    parse: string -> Result<Json, string>,
    show: Json -> string,
    b64: string -> string,
    repr: string -> string,
    netlocError: string -> Option<string>)

  const ApiPath := "/index.php?/api/v2/"
  const BasicScheme := "Basic "
  const JsonMediaType := "application/json"
  const ApiErrorPrefix := "TestRail API error: "
  const AccessErrorPrefix := "Error accessing TestRail API: "

  /** `TestRailClient(base_url, username, password)`: the base URL loses every trailing
      slash, the credentials are kept verbatim. */
  function NewClient(baseUrl: string, username: string, password: string): (c: Client)
    ensures c.baseUrl <= baseUrl
    ensures |c.baseUrl| == 0 || c.baseUrl[|c.baseUrl| - 1] != '/'
    ensures forall i | |c.baseUrl| <= i < |baseUrl| :: baseUrl[i] == '/'
    ensures c.username == username && c.password == password
  {
    Client(TrimTrailing(baseUrl, '/'), username, password)
  }

  /** The client each module-level function builds from its configuration. */
  function ClientOf(cfg: Config): (c: Client)
    ensures c.baseUrl == TrimTrailing(cfg.baseUrl, '/')
    ensures c.username == cfg.username && c.password == cfg.password
  {
    NewClient(cfg.baseUrl, cfg.username, cfg.password)
  }

  /** The URL of an API endpoint: the base, the fixed API path, then the endpoint. */
  function RequestUrl(c: Client, endpoint: string): (url: string)
    ensures c.baseUrl + ApiPath <= url
    ensures |url| == |c.baseUrl| + |ApiPath| + |endpoint|
    ensures url[|c.baseUrl| + |ApiPath|..] == endpoint
  {
    c.baseUrl + ApiPath + endpoint
  }

  /** The endpoint a URL addresses for client `c`, if it is one of `c`'s API URLs. */
  function EndpointOf(c: Client, url: string): (e: Option<string>)
    ensures e.Some? <==> c.baseUrl + ApiPath <= url
  {
    var root := c.baseUrl + ApiPath;
    if root <= url then Some(url[|root|..]) else None
  }

  /** Every request URL names its endpoint, and every API URL of the client is the
      request URL of the endpoint it names: the URL and the endpoint determine each
      other. */
  lemma EndpointRoundTrip(c: Client, endpoint: string, url: string)
    ensures EndpointOf(c, RequestUrl(c, endpoint)) == Some(endpoint)
    ensures EndpointOf(c, url) == Some(endpoint) <==> url == RequestUrl(c, endpoint)
  {
  }

  /** For a client built by `NewClient`, the base URL and the API path meet at exactly one
      slash: the character before the path's leading `/` is never another `/`. */
  lemma NoDoubleSlash(baseUrl: string, username: string, password: string, endpoint: string)
    ensures var c := NewClient(baseUrl, username, password);
            var url := RequestUrl(c, endpoint);
            url[|c.baseUrl|] == '/' && (|c.baseUrl| == 0 || url[|c.baseUrl| - 1] != '/')
  {
  }

  /** The Basic credentials of section 2 of RFC 7617: the user-id and the password joined
      by one colon, Base64-encoded after the scheme name. */
  function AuthHeader(c: Client, b64: string -> string): (h: string)
    ensures BasicScheme <= h
    ensures h[|BasicScheme|..] == b64(c.username + ":" + c.password)
  {
    BasicScheme + b64(c.username + ":" + c.password)
  }

  /** How a server reads Basic credentials: drop the scheme, decode, and cut at the first
      colon into user-id and password. */
  function ParseBasic(h: string, unb64: string -> string): Option<(string, string)> {
    if BasicScheme <= h then SplitAtFirst(unb64(h[|BasicScheme|..]), ':') else None
  }

  /** With a decoder that undoes the encoder and a user name free of colons (the RFC forbids
      them), the server reads back exactly the client's user name and password. */
  lemma AuthHeaderRoundTrip(c: Client, b64: string -> string, unb64: string -> string)
    requires forall x :: unb64(b64(x)) == x
    requires ':' !in c.username
    ensures ParseBasic(AuthHeader(c, b64), unb64) == Some((c.username, c.password))
  {
    var h := AuthHeader(c, b64);
    assert unb64(h[|BasicScheme|..]) == c.username + ":" + c.password;
    SplitAtFirstJoin(c.username, ':', c.password);
  }

  /** The client does not check the user name: one that contains a colon is read back
      shorter, the rest landing in the password. */
  lemma ColonInUsernameIsMisread(c: Client, b64: string -> string, unb64: string -> string)
    requires forall x :: unb64(b64(x)) == x
    requires ':' in c.username
    ensures var p := ParseBasic(AuthHeader(c, b64), unb64);
            p.Some? && p.value.0 != c.username && |p.value.0| < |c.username|
  {
    var h := AuthHeader(c, b64);
    var joined := c.username + ":" + c.password;
    assert unb64(h[|BasicScheme|..]) == joined;
    var p := SplitAtFirst(joined, ':');
    assert p.Some?;
    var k := FirstIndexOf(c.username, ':').value;
    assert joined[k] == ':';
    assert |p.value.0| <= k by {
      assert forall i | 0 <= i < |p.value.0| :: joined[i] == p.value.0[i];
    }
  }

  /** The header map of every request. */
  function Headers(c: Client, b64: string -> string): (hs: map<string, string>)
    ensures hs.Keys == {"Authorization", "Content-Type", "Accept"}
    ensures hs["Authorization"] == AuthHeader(c, b64)
    ensures hs["Content-Type"] == JsonMediaType && hs["Accept"] == JsonMediaType
  {
    map["Authorization" := AuthHeader(c, b64),
        "Content-Type" := JsonMediaType,
        "Accept" := JsonMediaType]
  }

  /** The request `_make_request(endpoint)` builds. */
  function RequestFor(c: Client, endpoint: string, b64: string -> string): (req: Request)
    ensures EndpointOf(c, req.url) == Some(endpoint)
    ensures req.headers.Keys == {"Authorization", "Content-Type", "Accept"}
    ensures req.headers["Authorization"] == AuthHeader(c, b64)
  {
    Request(RequestUrl(c, endpoint), Headers(c, b64))
  }

  /** The `AttributeError` of calling `.get` on a JSON value that is not an object: the
      message names the value's class. */
  function NoGetMethod(v: Json): (e: Error)
    ensures e.kind == AttributeError
    ensures "'" + TypeName(v) + "'" <= e.message
  {
    Error(AttributeError, "'" + TypeName(v) + "' object has no attribute 'get'")
  }

  /** The exception raised for an HTTP error response with body `body`: the remote `error`
      field when the body is a JSON object that has one, the whole body when the object
      lacks it or the body is not JSON at all; `.get` on a JSON value that is not an object
      raises `AttributeError` instead. */
  function HttpErrorOf(body: string, io: Io): (e: Error)
    ensures e.kind == Exception || e.kind == AttributeError
    ensures e.kind == Exception <==> io.parse(body).Failure? || io.parse(body).value.JObj?
    ensures e.kind == Exception ==> ApiErrorPrefix <= e.message
    ensures io.parse(body).Failure? ==> e.message[|ApiErrorPrefix|..] == body
    ensures io.parse(body).Success? && io.parse(body).value.JObj? ==>
              var m := io.parse(body).value.fields;
              e.message[|ApiErrorPrefix|..] == (if "error" in m then PyStr(m["error"], io.show) else body)
  {
    match io.parse(body)
    case Failure(_) => Error(Exception, ApiErrorPrefix + body)
    case Success(v) =>
      if v.JObj? then
        Error(Exception, ApiErrorPrefix + (if "error" in v.fields then PyStr(v.fields["error"], io.show) else body))
      else
        NoGetMethod(v)
  }

  /** An error body `{"error": text}` yields a message that ends with the remote text;
      a body that is not JSON yields a message that ends with the raw body. */
  lemma RemoteErrorTextIsKept(body: string, text: string, io: Io)
    ensures io.parse(body) == Success(JObj(map["error" := JStr(text)])) ==>
              HttpErrorOf(body, io).message == ApiErrorPrefix + text
    ensures io.parse(body).Failure? ==> HttpErrorOf(body, io).message == ApiErrorPrefix + body
  {
  }

  /** Building and sending `req`: the decoded body of a successful GET, or the error
      raised. Building the request can raise `ValueError` before the `try`, and that error
      is not wrapped. Of the errors raised inside the `try`, those for an HTTP error response
      keep the `TestRail API error: ` prefix and are not re-wrapped as access errors. Nor is
      a failure to read the error body: it escapes the handler as it was raised. */
  function Fetch(req: Request, io: Io): (r: Result<Json, Error>)
    ensures r.Failure? && !io.send(req).HttpErrorUnreadable? ==>
              r.error.kind in {ValueError, Exception, AttributeError}
    ensures r.Failure? && io.send(req).HttpErrorUnreadable? ==>
              r.error.kind == ValueError || r.error == io.send(req).failure
    ensures r.Failure? && r.error.kind == Exception && !io.send(req).HttpErrorUnreadable? ==>
              && (ApiErrorPrefix <= r.error.message <==> io.send(req).HttpError?)
              && (AccessErrorPrefix <= r.error.message <==> !io.send(req).HttpError?)
  {
    match RequestError(req.url, io.repr, io.netlocError)
    case Some(e) => Failure(e)
    case None =>
      match io.send(req)
      case Ok(body) =>
        (match io.parse(body)
         case Success(v) => Success(v)
         case Failure(msg) =>
           assert (AccessErrorPrefix + msg)[0] != ApiErrorPrefix[0];
           Failure(Error(Exception, AccessErrorPrefix + msg)))
      case HttpError(_, body) =>
        var e := HttpErrorOf(body, io);
        assert e.kind == Exception ==> e.message[0] != AccessErrorPrefix[0];
        Failure(e)
      case HttpErrorUnreadable(_, e) => Failure(e)
      case TransportFailure(reason) =>
        assert (AccessErrorPrefix + reason)[0] != ApiErrorPrefix[0];
        Failure(Error(Exception, AccessErrorPrefix + reason))
  }

  /** The outcome of `Fetch` case by case. A `ValueError` is raised exactly when the URL
      is rejected, and then before anything is sent. Otherwise the call succeeds exactly when the response is a success
      whose body parses, and returns the parsed body; an HTTP error raises the error
      `HttpErrorOf` chooses, or the failure to read its body unchanged; an unparseable body
      or any other failure is wrapped as an access error. */
  lemma FetchOutcome(req: Request, io: Io)
    ensures Fetch(req, io).Failure? ==>
              (Fetch(req, io).error.kind == ValueError <==>
                 || RequestError(req.url, io.repr, io.netlocError).Some?
                 || (io.send(req).HttpErrorUnreadable? && io.send(req).failure.kind == ValueError))
    ensures var r := Fetch(req, io);
            var rejected := RequestError(req.url, io.repr, io.netlocError);
            var resp := io.send(req);
            && (rejected.Some? ==> r == Failure(rejected.value))
            && (rejected.None? ==>
                  && (r.Success? <==> resp.Ok? && io.parse(resp.body).Success?)
                  && (r.Success? ==> r.value == io.parse(resp.body).value)
                  && (resp.HttpError? ==> r == Failure(HttpErrorOf(resp.body, io)))
                  && (resp.HttpErrorUnreadable? ==> r == Failure(resp.failure))
                  && (resp.Ok? && io.parse(resp.body).Failure? ==>
                        r == Failure(Error(Exception, AccessErrorPrefix + io.parse(resp.body).error)))
                  && (resp.TransportFailure? ==> r == Failure(Error(Exception, AccessErrorPrefix + resp.reason))))
  {
    if RequestError(req.url, io.repr, io.netlocError).None? {
      match io.send(req)
      case Ok(body) =>
      case HttpError(_, body) =>
        assert HttpErrorOf(body, io).kind != ValueError;
      case HttpErrorUnreadable(_, e) =>
      case TransportFailure(_) =>
    }
  }

  /** The API path adds no colon to a request URL. */
  lemma NoColonAdded(c: Client, endpoint: string)
    requires ':' !in c.baseUrl && ':' !in endpoint
    ensures ':' !in RequestUrl(c, endpoint)
  {
    assert ':' !in ApiPath;
    assert RequestUrl(c, endpoint) == (c.baseUrl + ApiPath) + endpoint;
  }

  /** `_make_request(endpoint)`: builds the client's request for `endpoint` and fetches it.
      A base URL with no colon has no scheme, so the call raises `ValueError` and nothing
      is sent. */
  function MakeRequest(c: Client, endpoint: string, io: Io): (r: Result<Json, Error>)
    ensures ':' !in c.baseUrl && ':' !in endpoint ==>
              r.Failure? && r.error.kind == ValueError && UnknownUrlType <= r.error.message
  {
    assert ':' !in c.baseUrl && ':' !in endpoint ==> ':' !in RequestUrl(c, endpoint) by {
      if ':' !in c.baseUrl && ':' !in endpoint {
        NoColonAdded(c, endpoint);
      }
    }
    Fetch(RequestFor(c, endpoint, io.b64), io)
  }

  /** A client built from a base URL that starts with `http:` or `https:` builds request
      URLs that pass the scheme check, for every endpoint: even `https://` keeps its scheme
      when its trailing slashes are stripped. So `Request` can refuse such a URL only
      through the network-location check. */
  lemma ClientUrlHasScheme(cfg: Config, endpoint: string, io: Io)
    requires "http:" <= cfg.baseUrl || "https:" <= cfg.baseUrl
    ensures var (target, fragment) := SplitAtLast(UnwrapUrl(RequestUrl(ClientOf(cfg), endpoint)), '#');
            && HasScheme(target)
            && (RequestError(RequestUrl(ClientOf(cfg), endpoint), io.repr, io.netlocError).Some? <==>
                io.netlocError(FullUrl(target, fragment)).Some?)
  {
    ClientUrlKeepsScheme(cfg, endpoint);
    WebUrlHasScheme(RequestUrl(ClientOf(cfg), endpoint), io.repr, io.netlocError);
  }

  /** The request URL starts with the scheme its client's base URL started with. */
  lemma ClientUrlKeepsScheme(cfg: Config, endpoint: string)
    requires "http:" <= cfg.baseUrl || "https:" <= cfg.baseUrl
    ensures "http:" <= cfg.baseUrl ==> "http:" <= RequestUrl(ClientOf(cfg), endpoint)
    ensures "https:" <= cfg.baseUrl ==> "https:" <= RequestUrl(ClientOf(cfg), endpoint)
  {
    var p := if "http:" <= cfg.baseUrl then "http:" else "https:";
    StripKeepsScheme(cfg.baseUrl, p);
    assert ClientOf(cfg).baseUrl <= RequestUrl(ClientOf(cfg), endpoint);
  }

  /** Stripping trailing slashes keeps a prefix that ends in a colon. */
  lemma StripKeepsScheme(base: string, p: string)
    requires |p| > 0 && p <= base && p[|p| - 1] == ':'
    ensures p <= TrimTrailing(base, '/')
  {
    var r := TrimTrailing(base, '/');
    assert base[|p| - 1] == ':';
    assert forall i | 0 <= i < |p| :: r[i] == base[i];
  }

  /** `response.get(key, [])`: the field when present, an empty list when absent;
      a response that is not an object has no `get` and raises `AttributeError`. */
  function ListField(response: Json, key: string): (r: Result<Json, Error>)
    ensures response.JObj? <==> r.Success?
    ensures response.JObj? && key in response.fields ==> r.value == response.fields[key]
    ensures response.JObj? && key !in response.fields ==> r.value == JArr([])
    ensures !response.JObj? ==> r.error.kind == AttributeError
  {
    if response.JObj? then
      Success(if key in response.fields then response.fields[key] else JArr([]))
    else
      Failure(NoGetMethod(response))
  }

  /** The endpoint path of a query: its name, then `str(id)`. A name with no colon or `#`
      gives an endpoint with none, so the id cannot change how the URL is parsed. */
  function Endpoint(name: string, id: int): (e: string)
    ensures name <= e && e[|name|..] == IntToDecimal(id)
    ensures ':' !in name && '#' !in name ==> ':' !in e && '#' !in e
  {
    name + IntToDecimal(id)
  }

  /** The endpoints of the three queries. */
  function RunEndpoint(runId: int): string {
    Endpoint("get_run/", runId)
  }

  function TestsEndpoint(runId: int): string {
    Endpoint("get_tests/", runId)
  }

  function ResultsEndpoint(testId: int): string {
    Endpoint("get_results/", testId)
  }

  /** An endpoint's id is read back from it: the same name with two ids is the same
      endpoint only when the ids are equal. */
  lemma EndpointIdInjective(name: string, a: int, b: int)
    requires Endpoint(name, a) == Endpoint(name, b)
    ensures a == b
  {
    IntToDecimalInjective(a, b);
  }

  /** A request URL determines its endpoint, so distinct endpoints are requested at
      distinct URLs. */
  lemma RequestUrlInjective(c: Client, e1: string, e2: string)
    requires RequestUrl(c, e1) == RequestUrl(c, e2)
    ensures e1 == e2
  {
  }

  /** The URL of a query names its id: two runs, or two tests, are fetched from the same
      URL only when their ids are equal. */
  lemma QueryUrlsIdentify(c: Client, a: int, b: int)
    ensures RequestUrl(c, RunEndpoint(a)) == RequestUrl(c, RunEndpoint(b)) ==> a == b
    ensures RequestUrl(c, TestsEndpoint(a)) == RequestUrl(c, TestsEndpoint(b)) ==> a == b
    ensures RequestUrl(c, ResultsEndpoint(a)) == RequestUrl(c, ResultsEndpoint(b)) ==> a == b
  {
    if RequestUrl(c, RunEndpoint(a)) == RequestUrl(c, RunEndpoint(b)) {
      RequestUrlInjective(c, RunEndpoint(a), RunEndpoint(b));
      EndpointIdInjective("get_run/", a, b);
    }
    if RequestUrl(c, TestsEndpoint(a)) == RequestUrl(c, TestsEndpoint(b)) {
      RequestUrlInjective(c, TestsEndpoint(a), TestsEndpoint(b));
      EndpointIdInjective("get_tests/", a, b);
    }
    if RequestUrl(c, ResultsEndpoint(a)) == RequestUrl(c, ResultsEndpoint(b)) {
      RequestUrlInjective(c, ResultsEndpoint(a), ResultsEndpoint(b));
      ResultsEndpointInjective(a, b);
    }
  }

  /** The three queries never share a URL, whatever their ids. */
  lemma QueryUrlsDistinct(c: Client, a: int, b: int)
    ensures RequestUrl(c, RunEndpoint(a)) != RequestUrl(c, TestsEndpoint(b))
    ensures RequestUrl(c, RunEndpoint(a)) != RequestUrl(c, ResultsEndpoint(b))
    ensures RequestUrl(c, TestsEndpoint(a)) != RequestUrl(c, ResultsEndpoint(b))
  {
    var k := |c.baseUrl| + |ApiPath|;
    assert RequestUrl(c, RunEndpoint(a))[k + 4] == 'r' && RequestUrl(c, RunEndpoint(a))[k + 5] == 'u';
    assert RequestUrl(c, TestsEndpoint(b))[k + 4] == 't';
    assert RequestUrl(c, ResultsEndpoint(b))[k + 5] == 'e';
    assert RequestUrl(c, TestsEndpoint(a))[k + 4] == 't';
    assert RequestUrl(c, ResultsEndpoint(b))[k + 4] == 'r';
  }

  /** Distinct tests are queried at distinct endpoints. */
  lemma ResultsEndpointInjective(a: int, b: int)
    requires ResultsEndpoint(a) == ResultsEndpoint(b)
    ensures a == b
  {
    EndpointIdInjective("get_results/", a, b);
  }

  /** The request for endpoint `name + <id>` spelled out from the configuration. */
  lemma QueryRequest(cfg: Config, name: string, id: int, io: Io)
    ensures var url := TrimTrailing(cfg.baseUrl, '/') + ApiPath + name + IntToDecimal(id);
            && RequestFor(ClientOf(cfg), name + IntToDecimal(id), io.b64) == Request(url, Headers(ClientOf(cfg), io.b64))
            && EndpointOf(ClientOf(cfg), url) == Some(name + IntToDecimal(id))
  {
    var base := TrimTrailing(cfg.baseUrl, '/');
    assert base + ApiPath + (name + IntToDecimal(id)) == base + ApiPath + name + IntToDecimal(id);
    EndpointRoundTrip(ClientOf(cfg), name + IntToDecimal(id), base + ApiPath + name + IntToDecimal(id));
  }

  /** `get_run(run_id, config)`: the decoded run document, fetched from
      `<base without trailing slashes>/index.php?/api/v2/get_run/<run_id>`, a URL from which
      the run id is read back (`QueryUrlsIdentify`). */
  function GetRun(runId: int, cfg: Config, io: Io): (r: Result<Json, Error>)
    ensures var url := TrimTrailing(cfg.baseUrl, '/') + ApiPath + "get_run/" + IntToDecimal(runId);
            && EndpointOf(ClientOf(cfg), url) == Some(RunEndpoint(runId))
            && r == Fetch(Request(url, Headers(ClientOf(cfg), io.b64)), io)
  {
    var c := ClientOf(cfg);
    QueryRequest(cfg, "get_run/", runId, io);
    MakeRequest(c, RunEndpoint(runId), io)
  }

  /** `response.get(key, [])` after a request: a failed request passes through; a
      response object gives its field or an empty list; any other response raises
      `AttributeError`. */
  function Unwrap(response: Result<Json, Error>, key: string): (r: Result<Json, Error>)
    ensures r.Success? <==> response.Success? && response.value.JObj?
    ensures response.Failure? ==> r == response
    ensures r.Success? ==>
              r.value == (if key in response.value.fields then response.value.fields[key] else JArr([]))
    ensures response.Success? && !response.value.JObj? ==> r.error.kind == AttributeError
  {
    match response
    case Failure(e) => Failure(e)
    case Success(v) => ListField(v, key)
  }

  /** `get_tests(run_id, config)`: the `tests` field of the document at
      `<base>/index.php?/api/v2/get_tests/<run_id>`, an empty list when the field is
      missing, or the error of the request. */
  function GetTests(runId: int, cfg: Config, io: Io): (r: Result<Json, Error>)
    ensures var url := TrimTrailing(cfg.baseUrl, '/') + ApiPath + "get_tests/" + IntToDecimal(runId);
            var resp := Fetch(Request(url, Headers(ClientOf(cfg), io.b64)), io);
            && EndpointOf(ClientOf(cfg), url) == Some(TestsEndpoint(runId))
            && (resp.Failure? ==> r == resp)
            && (resp.Success? ==> r == ListField(resp.value, "tests"))
  {
    var c := ClientOf(cfg);
    QueryRequest(cfg, "get_tests/", runId, io);
    Unwrap(MakeRequest(c, TestsEndpoint(runId), io), "tests")
  }

  /** `get_results_for_test(test_id, config)`: the `results` field of the document at
      `<base>/index.php?/api/v2/get_results/<test_id>`, an empty list when the field is
      missing, or the error of the request. */
  function GetResultsForTest(testId: int, cfg: Config, io: Io): (r: Result<Json, Error>)
    ensures var url := TrimTrailing(cfg.baseUrl, '/') + ApiPath + "get_results/" + IntToDecimal(testId);
            var resp := Fetch(Request(url, Headers(ClientOf(cfg), io.b64)), io);
            && EndpointOf(ClientOf(cfg), url) == Some(ResultsEndpoint(testId))
            && (resp.Failure? ==> r == resp)
            && (resp.Success? ==> r == ListField(resp.value, "results"))
  {
    var c := ClientOf(cfg);
    QueryRequest(cfg, "get_results/", testId, io);
    Unwrap(MakeRequest(c, ResultsEndpoint(testId), io), "results")
  }
}

=== FILE: text.dfy ===
/** The string operations the client and `urllib` rely on: `str.rstrip` of one character,
    `str.strip` of Python whitespace, Python's decimal `str(int)`, and splitting at the first
    or the last occurrence of a character. */
module Text {

  import opened Outcomes

  /** `s` without its longest suffix of characters satisfying `drop`. */
  function TrimEnd(s: string, drop: char -> bool): (r: string)
    ensures r <= s
    ensures |r| == 0 || !drop(r[|r| - 1])
    ensures forall i | |r| <= i < |s| :: drop(s[i])
    decreases |s|
  {
    if |s| > 0 && drop(s[|s| - 1]) then TrimEnd(s[..|s| - 1], drop) else s
  }

  /** `s` without its longest prefix of characters satisfying `drop`. */
  function TrimStart(s: string, drop: char -> bool): (r: string)
    ensures |r| <= |s| && r == s[|s| - |r|..]
    ensures |r| == 0 || !drop(r[0])
    ensures forall i | 0 <= i < |s| - |r| :: drop(s[i])
    decreases |s|
  {
    if |s| > 0 && drop(s[0]) then TrimStart(s[1..], drop) else s
  }

  /** `s.rstrip(c)`: `s` with every trailing `c` removed. */
  function TrimTrailing(s: string, c: char): (r: string)
    ensures r <= s
    ensures |r| == 0 || r[|r| - 1] != c
    ensures forall i | |r| <= i < |s| :: s[i] == c
  {
    TrimEnd(s, ch => ch == c)
  }

  /** The three properties of `TrimTrailing` single out its result: any prefix of `s` that
      does not end in `c` and is followed only by `c`s is exactly the stripped string. */
  lemma TrimTrailingUnique(s: string, c: char, r': string)
    requires r' <= s
    requires |r'| == 0 || r'[|r'| - 1] != c
    requires forall i | |r'| <= i < |s| :: s[i] == c
    ensures r' == TrimTrailing(s, c)
  {
  }

  /** Stripping twice strips nothing more. */
  lemma TrimTrailingIdempotent(s: string, c: char)
    ensures TrimTrailing(TrimTrailing(s, c), c) == TrimTrailing(s, c)
  {
  }

  /** The character of a decimal digit. */
  function DigitChar(d: nat): (ch: char)
    requires d < 10
    ensures '0' <= ch <= '9'
    ensures ch as int - '0' as int == d
  {
    (d + '0' as int) as char
  }

  predicate IsDigit(ch: char) {
    '0' <= ch <= '9'
  }

  /** `str(n)` for a natural number: its decimal digits, most significant first. */
  function NatToDecimal(n: nat): (s: string)
    ensures |s| > 0
    ensures forall i | 0 <= i < |s| :: IsDigit(s[i])
    ensures s[0] == '0' ==> n == 0
    decreases n
  {
    if n < 10 then [DigitChar(n)] else NatToDecimal(n / 10) + [DigitChar(n % 10)]
  }

  /** `str(n)` for any Python int: a minus sign before the digits of a negative number. */
  function IntToDecimal(n: int): (r: string)
    ensures |r| > 0
    ensures r[0] == '-' <==> n < 0
    ensures forall i | 0 <= i < |r| :: IsDigit(r[i]) || (i == 0 && r[i] == '-')
  {
    if n < 0 then "-" + NatToDecimal(-n) else NatToDecimal(n)
  }

  /** The value of one decimal digit. */
  function DigitOf(ch: char): nat
    requires IsDigit(ch)
  {
    ch as int - '0' as int
  }

  /** The value of a string of decimal digits. */
  function DigitsValue(s: string): nat
    requires forall i | 0 <= i < |s| :: IsDigit(s[i])
    decreases |s|
  {
    if |s| == 0 then 0
    else DigitsValue(s[..|s| - 1]) * 10 + DigitOf(s[|s| - 1])
  }

  /** Reading the digits of `n` back gives `n`. */
  lemma {:induction false} NatToDecimalRoundTrip(n: nat)
    ensures DigitsValue(NatToDecimal(n)) == n
    decreases n
  {
    var s := NatToDecimal(n);
    if n >= 10 {
      assert s[..|s| - 1] == NatToDecimal(n / 10);
      NatToDecimalRoundTrip(n / 10);
    }
  }

  /** Distinct integers have distinct decimal renderings, so an endpoint path names
      exactly one identifier. */
  lemma IntToDecimalInjective(a: int, b: int)
    requires IntToDecimal(a) == IntToDecimal(b)
    ensures a == b
  {
    if a < 0 && b < 0 {
      assert NatToDecimal(-a) == IntToDecimal(a)[1..];
      assert NatToDecimal(-b) == IntToDecimal(b)[1..];
      NatToDecimalRoundTrip(-a);
      NatToDecimalRoundTrip(-b);
    } else if a >= 0 && b >= 0 {
      NatToDecimalRoundTrip(a);
      NatToDecimalRoundTrip(b);
    }
  }

  /** The position of the first `c` in `s`, if any. */
  function FirstIndexOf(s: string, c: char): (r: Option<nat>)
    ensures r.Some? ==> r.value < |s| && s[r.value] == c
    ensures r.Some? ==> c !in s[..r.value]
    ensures r.None? <==> c !in s
    decreases |s|
  {
    if |s| == 0 then None
    else if s[0] == c then Some(0)
    else match FirstIndexOf(s[1..], c)
      case None => None
      case Some(k) => Some(k + 1)
  }

  /** `s` cut at its first `c`: the text before it and the text after it. */
  function SplitAtFirst(s: string, c: char): (r: Option<(string, string)>)
    ensures r.None? <==> c !in s
    ensures r.Some? ==> s == r.value.0 + [c] + r.value.1 && c !in r.value.0
  {
    match FirstIndexOf(s, c)
    case None => None
    case Some(k) => Some((s[..k], s[k + 1..]))
  }

  /** Cutting `a + [c] + b` at its first `c` gives back `a` and `b` exactly when `a` has
      no `c` of its own. */
  lemma SplitAtFirstJoin(a: string, c: char, b: string)
    requires c !in a
    ensures SplitAtFirst(a + [c] + b, c) == Some((a, b))
  {
    var s := a + [c] + b;
    assert c in s by { assert s[|a|] == c; }
    var r := SplitAtFirst(s, c);
    var k := |r.value.0|;
    assert s[k] == c;
    assert forall i | 0 <= i < |a| :: s[i] == a[i];
    assert k <= |a| by {
      assert s[|a|] == c;
      assert forall i | 0 <= i < k :: s[..k][i] == s[i];
    }
    assert r.value.0 == a;
    assert r.value.1 == s[|a| + 1..];
    assert s[|a| + 1..] == b;
  }

  /** The characters `str.isspace` accepts: the ASCII controls tab to carriage return, the
      four separators U+001C to U+001F, space, and the Unicode spaces and line and paragraph
      separators. */
  predicate IsPySpace(ch: char) {
    || ch == ' '
    || '\t' <= ch <= '\r'
    || '\U{1C}' <= ch <= '\U{1F}'
    || ch == '\U{85}' || ch == '\U{A0}' || ch == '\U{1680}'
    || '\U{2000}' <= ch <= '\U{200A}'
    || ch == '\U{2028}' || ch == '\U{2029}' || ch == '\U{202F}' || ch == '\U{205F}' || ch == '\U{3000}'
  }

  /** `s` neither starts nor ends with whitespace. */
  predicate Stripped(s: string) {
    |s| == 0 || (!IsPySpace(s[0]) && !IsPySpace(s[|s| - 1]))
  }

  /** `s.strip()`: `s` without leading and trailing whitespace; it adds no character, and
      a string that is already stripped comes back unchanged. */
  function Strip(s: string): (r: string)
    ensures Stripped(r)
    ensures forall ch | ch in r :: ch in s
    ensures Stripped(s) ==> r == s
  {
    var tail := TrimEnd(s, IsPySpace);
    var r := TrimStart(tail, IsPySpace);
    assert Stripped(s) ==> r == s by {
      if Stripped(s) && |s| > 0 {
        assert !IsPySpace(s[|s| - 1]);
        assert tail == s;
        assert !IsPySpace(tail[0]);
      }
    }
    assert |r| > 0 ==> r[|r| - 1] == tail[|tail| - 1];
    assert forall ch | ch in r :: ch in tail;
    assert forall ch | ch in tail :: ch in s;
    r
  }

  /** Every character of `w` is Python whitespace. */
  predicate Blank(w: string) {
    forall i | 0 <= i < |w| :: IsPySpace(w[i])
  }

  /** Trimming blanks off the end of `s + w` gives back `s` when `w` is blank and `s` ends
      in a character that is not. */
  lemma TrimEndBlank(s: string, w: string)
    requires |s| > 0 && !IsPySpace(s[|s| - 1]) && Blank(w)
    ensures TrimEnd(s + w, IsPySpace) == s
  {
    var r := TrimEnd(s + w, IsPySpace);
    assert (s + w)[|s| - 1] == s[|s| - 1];
    assert forall i | |s| <= i < |s + w| :: (s + w)[i] == w[i - |s|];
    assert |r| == |s|;
    assert r == (s + w)[..|s|];
  }

  /** Trimming blanks off the start of `w + s` gives back `s` when `w` is blank and `s`
      starts with a character that is not. */
  lemma TrimStartBlank(w: string, s: string)
    requires |s| > 0 && !IsPySpace(s[0]) && Blank(w)
    ensures TrimStart(w + s, IsPySpace) == s
  {
    var r := TrimStart(w + s, IsPySpace);
    assert (w + s)[|w|] == s[0];
    assert forall i | 0 <= i < |w| :: (w + s)[i] == w[i];
    assert |r| == |s|;
    assert r == (w + s)[|w|..];
  }

  /** `strip` removes exactly the surrounding blanks: a stripped, non-empty `s` between
      any two runs of whitespace comes back as `s`. */
  lemma StripRoundTrip(w1: string, s: string, w2: string)
    requires Blank(w1) && Blank(w2) && Stripped(s) && |s| > 0
    ensures Strip(w1 + s + w2) == s
  {
    TrimEndBlank(w1 + s, w2);
    TrimStartBlank(w1, s);
  }

  /** The position of the last `c` in `s`, if any. */
  function LastIndexOf(s: string, c: char): (r: Option<nat>)
    ensures r.Some? ==> r.value < |s| && s[r.value] == c
    ensures r.Some? ==> c !in s[r.value + 1..]
    ensures r.None? <==> c !in s
    decreases |s|
  {
    if |s| == 0 then None
    else if s[|s| - 1] == c then Some(|s| - 1)
    else LastIndexOf(s[..|s| - 1], c)
  }

  /** `s.rpartition(c)` as `urllib` uses it: the text before the last `c` and the text after
      it, or `s` and nothing when there is no `c`. */
  function SplitAtLast(s: string, c: char): (r: (string, Option<string>))
    ensures r.0 <= s
    ensures r.1.None? <==> c !in s
    ensures r.1.None? ==> r.0 == s
    ensures r.1.Some? ==> s == r.0 + [c] + r.1.value && c !in r.1.value
  {
    match LastIndexOf(s, c)
    case None => (s, None)
    case Some(k) =>
      assert s == s[..k] + [c] + s[k + 1..];
      (s[..k], Some(s[k + 1..]))
  }
}

=== FILE: urls.dfy ===
/** What building a `urllib.request.Request` does with its URL string before anything is
    sent: `unwrap` it, cut off the `#fragment`, and insist on a `scheme:` prefix. A URL
    without one raises `ValueError` on the spot. The later network-location check of
    `urlparse` depends on the Python version and is given as a function. */
module Urls {

  import opened Outcomes
  import opened Text

  const UnknownUrlType := "unknown url type: "

  /** `urllib.parse.unwrap`: strip whitespace, then one enclosing pair of angle brackets,
      then a leading `URL:`, stripping again after each removal. */
  function UnwrapUrl(url: string): (r: string)
    ensures forall ch | ch in r :: ch in url
    ensures Stripped(r)
    ensures Stripped(url) && (|url| == 0 || url[0] != '<') && !("URL:" <= url) ==> r == url
  {
    var a := Strip(url);
    var b := if |a| >= 2 && a[0] == '<' && a[|a| - 1] == '>' then StripSlice(a, 1, |a| - 1) else a;
    if "URL:" <= b then StripSlice(b, 4, |b|) else b
  }

  /** `unwrap` removes exactly the wrapper `<URL:...>`: the wrapped form of a stripped,
      non-empty URL unwraps to that URL. */
  lemma UnwrapRoundTrip(u: string)
    requires Stripped(u) && |u| > 0
    ensures UnwrapUrl("<URL:" + u + ">") == u
  {
    var wrapped := "<URL:" + u + ">";
    BracketsStripped(u);
    PrefixStripped(u);
    assert wrapped[0] == '<' && wrapped[|wrapped| - 1] == '>';
    assert "URL:" <= "URL:" + u;
  }

  /** The bracketed form is already stripped, and the text between the brackets is too. */
  lemma BracketsStripped(u: string)
    requires Stripped(u) && |u| > 0
    ensures Strip("<URL:" + u + ">") == "<URL:" + u + ">"
    ensures StripSlice("<URL:" + u + ">", 1, |u| + 5) == "URL:" + u
  {
    var wrapped := "<URL:" + u + ">";
    assert Stripped(wrapped) by {
      assert wrapped[0] == '<' && wrapped[|wrapped| - 1] == '>';
    }
    assert wrapped[1..|u| + 5] == "URL:" + u;
    LabelStripped(u);
  }

  /** `URL:` followed by a stripped URL is stripped. */
  lemma LabelStripped(u: string)
    requires Stripped(u) && |u| > 0
    ensures Strip("URL:" + u) == "URL:" + u
  {
    assert ("URL:" + u)[0] == 'U' && ("URL:" + u)[|u| + 3] == u[|u| - 1];
  }

  /** What follows `URL:` is the stripped URL itself. */
  lemma PrefixStripped(u: string)
    requires Stripped(u) && |u| > 0
    ensures StripSlice("URL:" + u, 4, |u| + 4) == u
  {
    assert ("URL:" + u)[4..|u| + 4] == u;
  }

  /** `s[i:j].strip()`, which adds no character of its own. */
  function StripSlice(s: string, i: nat, j: nat): (r: string)
    requires i <= j <= |s|
    ensures forall ch | ch in r :: ch in s
    ensures Stripped(r)
  {
    var r := Strip(s[i..j]);
    assert forall ch | ch in s[i..j] :: ch in s;
    r
  }

  /** The `full_url` a `Request` reports: the URL without its fragment, with the fragment
      put back only when it is non-empty. */
  function FullUrl(target: string, fragment: Option<string>): (u: string)
    ensures target <= u
    ensures u == target <==> fragment.None? || |fragment.value| == 0
  {
    if fragment.Some? && |fragment.value| > 0 then target + "#" + fragment.value else target
  }

  /** The pattern `([^/:]+):` of `_splittype`, matched at the start: a non-empty run of
      characters other than `/` and `:`, then a colon. */
  predicate HasScheme(u: string) {
    match FirstIndexOf(u, ':')
    case None => false
    case Some(k) => k > 0 && '/' !in u[..k]
  }

  /** `HasScheme` is the regular expression: some colon after the first character has no
      `/` or `:` before it. */
  lemma SchemePattern(u: string)
    ensures HasScheme(u) <==>
            exists k | 0 < k < |u| :: u[k] == ':' && forall i | 0 <= i < k :: u[i] != ':' && u[i] != '/'
  {
    match FirstIndexOf(u, ':')
    case None =>
    case Some(k) =>
      assert k > 0 && '/' !in u[..k] ==> forall i | 0 <= i < k :: u[i] != ':' && u[i] != '/' by {
        assert forall i | 0 <= i < k :: u[i] in u[..k];
      }
      forall k' | 0 < k' < |u| && u[k'] == ':' && (forall i | 0 <= i < k' :: u[i] != ':' && u[i] != '/')
        ensures k' == k && '/' !in u[..k]
      {
        assert u[..k'] == u[..k] + u[k..k'];
      }
  }

  /** The `ValueError` that `urllib.request.Request(url)` raises while it is being built,
      if any. The scheme check of `_parse` comes first; its message quotes the full URL with
      `repr`. Then `request_host` runs `urlparse`, whose complaints about the network
      location are `netlocError`. */
  function RequestError(url: string, repr: string -> string, netlocError: string -> Option<string>): (r: Option<Error>)
    ensures r.Some? ==> r.value.kind == ValueError
    ensures var (target, fragment) := SplitAtLast(UnwrapUrl(url), '#');
            && (!HasScheme(target) ==> r == Some(Error(ValueError, UnknownUrlType + repr(FullUrl(target, fragment)))))
            && (HasScheme(target) ==> r == (match netlocError(FullUrl(target, fragment))
                                            case None => None
                                            case Some(m) => Some(Error(ValueError, m))))
    ensures ':' !in url ==> r.Some? && UnknownUrlType <= r.value.message
  {
    var (target, fragment) := SplitAtLast(UnwrapUrl(url), '#');
    var full := FullUrl(target, fragment);
    if !HasScheme(target) then
      Some(Error(ValueError, UnknownUrlType + repr(full)))
    else
      match netlocError(full)
      case None => None
      case Some(m) => Some(Error(ValueError, m))
  }

  /** Once a URL passes the scheme check, `Request` refuses it exactly when the
      network-location check does. */
  lemma SchemeLeavesNetloc(url: string, repr: string -> string, netlocError: string -> Option<string>)
    requires HasScheme(SplitAtLast(UnwrapUrl(url), '#').0)
    ensures var (target, fragment) := SplitAtLast(UnwrapUrl(url), '#');
            RequestError(url, repr, netlocError).Some? <==> netlocError(FullUrl(target, fragment)).Some?
  {
  }

  /** `unwrap` leaves a URL alone at the front when it starts with a non-blank prefix `p`
      that is not `<` or `URL:` and holds a character that is not blank. */
  lemma UnwrapKeepsPrefix(url: string, p: string)
    requires |p| >= 2 && p <= url
    requires forall i | 0 <= i < |p| :: !IsPySpace(p[i])
    requires p[0] != '<' && p[0] != 'U'
    ensures p <= UnwrapUrl(url)
  {
    var e := TrimEnd(url, IsPySpace);
    assert !IsPySpace(url[|p| - 1]);
    assert p <= e;
    assert Strip(url) == e;
  }

  /** Cutting off the fragment keeps a prefix that has no `#`. */
  lemma SplitTagKeepsPrefix(u: string, p: string)
    requires p <= u && '#' !in p
    ensures p <= SplitAtLast(u, '#').0
  {
    var target := SplitAtLast(u, '#').0;
    if '#' in u {
      assert u[|target|] == '#';
      assert forall i | 0 <= i < |p| :: u[i] == p[i];
    }
  }

  /** A URL that starts with a scheme `p` has that scheme. */
  lemma PrefixGivesScheme(u: string, p: string)
    requires |p| >= 2 && p <= u
    requires p[|p| - 1] == ':'
    requires forall i | 0 <= i < |p| - 1 :: p[i] != ':' && p[i] != '/'
    ensures HasScheme(u)
  {
    assert u[|p| - 1] == ':';
    assert FirstIndexOf(u, ':') == Some(|p| - 1) by {
      assert forall i | 0 <= i < |p| - 1 :: u[i] == p[i];
    }
    assert u[..|p| - 1] == p[..|p| - 1];
  }

  /** A URL that starts with a scheme `p` (characters ended by a colon, none of them blank,
      `<`, `U` or `#`) keeps that scheme through `unwrap` and the fragment cut. */
  lemma SchemeKept(url: string, p: string)
    requires |p| >= 2 && p <= url
    requires p[|p| - 1] == ':'
    requires forall i | 0 <= i < |p| - 1 :: p[i] != ':' && p[i] != '/'
    requires '#' !in p && forall i | 0 <= i < |p| :: !IsPySpace(p[i])
    requires p[0] != '<' && p[0] != 'U'
    ensures HasScheme(SplitAtLast(UnwrapUrl(url), '#').0)
  {
    UnwrapKeepsPrefix(url, p);
    SplitTagKeepsPrefix(UnwrapUrl(url), p);
    PrefixGivesScheme(SplitAtLast(UnwrapUrl(url), '#').0, p);
  }

  /** A URL handed to `Request` that starts with `http:` or `https:` is never rejected for
      lacking a scheme: only the network-location check can refuse it. */
  lemma WebUrlHasScheme(url: string, repr: string -> string, netlocError: string -> Option<string>)
    requires "http:" <= url || "https:" <= url
    ensures var (target, fragment) := SplitAtLast(UnwrapUrl(url), '#');
            && HasScheme(target)
            && (RequestError(url, repr, netlocError).Some? <==> netlocError(FullUrl(target, fragment)).Some?)
  {
    if "http:" <= url {
      SchemeKept(url, "http:");
    } else {
      SchemeKept(url, "https:");
    }
    SchemeLeavesNetloc(url, repr, netlocError);
  }
}
